=== FILE: README.md ===
# SK6812 strip animations, modelled in Dafny

This project models the animation core of a Raspberry Pi program that drives an RGBW (SK6812) LED strip. It covers four parts:

- **Colour helpers.** `fade_color`, `wheel_rgbw`, `scale_color` and `blend_colors`, plus the packed 32-bit colour word and the whole-strip writes `set_all_pixels`, `set_all_pixels_rgbw` and `clear_strip`.
- **The generic frame loop** `run_generic_animation`. While the stop flag is clear it calls the effect's update and flushes the strip. It catches and logs any exception, and it always blacks out the strip at the end.
- **Per-effect pixel rules.** These cover:
  - the block-interpolated rainbow, in both the current and the older module;
  - the rainbow with white flashes;
  - the white and brightness ramps;
  - the audio-reactive band colouring;
  - the random effects (firework, random walk, meteor shower, comet rain, pixel and lava explosions, sparkles, glitter, lightning);
  - the moving effects (Larson scanner, comet, white comet, meteor).
- **The older effects** of the top-level `animations.py`: its own rainbow loop and its blink loop.

How the program's pieces are represented:

- **The strip** is a `seq<Pixel>`. A pixel has four integer channels, and `Valid` says each lies in [0, 255].
- **Packed colour words.** `Color(r, g, b, w)` is `w << 24 | r << 16 | g << 8 | b`. Because the fields are disjoint, it is written as a sum. `(c >> k) & 0xff` is `(c / 2^k) % 256`.
- **Flushes.** A call to `show()` is an entry in a returned sequence of flushed buffers, or a `Shown` event in the engine's log. When an update's last statement is a `show()`, that flush and the loop's own flush that follows it show the same strip, so the model lists only the loop's one. The affected members are named under "Left out".
- **The stop flag** is the sequence of values that the loop's polls observe. Inside an effect's update it is `stopAt`, the number of the first poll that sees the flag set; the flag is never cleared again.
- **Random draws** are parameters constrained to the range of the draw.
- **Exceptions.** Raising is the `Raised` outcome.
- **Floating-point factors** are exact reals. Python's `int(x)` is truncation toward zero (`ColorUtils.Trunc`).

Files and modules:

| file | module | content |
|---|---|---|
| pixels.dfy | `Pixels` | pixel, packing and unpacking, buffer, whole-strip writes |
| color_utils.dfy | `ColorUtils` | fade, wheel, scale and blend |
| ranges.dfy | `Ranges` | Python's `range(start, stop, step)` |
| arith.dfy | `Arith` | facts about Euclidean division |
| engine.dfy | `Engine` | the generic frame loop |
| rainbow.dfy | `Rainbow` | block rainbow, rainbow with white flash |
| legacy.dfy | `Legacy` | the older rainbow and blink loops |
| ramps.dfy | `Ramps` | soft white pulse, warm white fade, fade |
| sound.dfy | `Sound` | normalisation and band colouring |
| strip_writes.dfy | `StripWrites` | guarded window writes and read-back decay |
| random_effects.dfy | `RandomEffects` | the random effects |
| motion.dfy | `Motion` | Larson scanner, comet, white comet, meteor |

## Model

| member | source | states |
|---|---|---|
| Pixels.Unpack | animations/animation_utils.py:72-75 | the four channel extractions of any packed word give a valid pixel |
| Pixels.UnpackPack | animations/animation_utils.py:102-105 | extracting the channels of a packed valid pixel gives back exactly that pixel |
| Pixels.PackUnpack | animations/animation_utils.py:138-139 | every 32-bit word is the packing of its four extracted channels |
| Pixels.Pack | animations/animation_utils.py:76-81 | a valid pixel packs into 32 bits, with blue in the low byte |
| Pixels.PackRange | animations/animation_utils.py:76-81 | a valid pixel packs into a 32-bit word |
| Pixels.SetPixel | animations/random_animations.py:19-21 | a pixel write needs an index on the strip and changes that pixel only |
| Pixels.SetAllPixels | animations/animation_utils.py:53-65 | writing one colour to indices 0..n-1 leaves every pixel that colour and keeps the length |
| Pixels.ClearStrip | animations/animation_utils.py:49-51 | clearing leaves every pixel black |
| Pixels.BlankIsDark | animations.py:63-70 | the older module's clear also gives an all-zero, valid strip |
| ColorUtils.Trunc | animations/animation_utils.py:107-110 | `int(x)` lies within one unit of `x`, on the side of zero |
| ColorUtils.FadeChannel | animations/animation_utils.py:77-80 | `c * b // 255` lies in [0, c]; brightness 255 keeps `c`, brightness 0 gives 0 |
| ColorUtils.FadeChannelMono | animations/animation_utils.py:77-80 | a higher brightness never gives a darker channel |
| ColorUtils.FadeColor | animations/animation_utils.py:67-81 | the faded colour is valid and no brighter than the input; 255 is the identity and 0 gives black |
| ColorUtils.FadeColorOfPixel | animations/animation_utils.py:72-81 | fading a packed valid pixel gives `c * b // 255` of its own channels |
| ColorUtils.FadeFullThenFade | animations/animation_utils.py:67-81 | fading the full-brightness result again is the same as fading the input |
| ColorUtils.FadeColorMono | animations/animation_utils.py:67-81 | the fade is monotone in brightness on every channel |
| ColorUtils.WheelRgbw | animations/animation_utils.py:83-95 | for pos in [0, 255] the channels are valid, white is 0, r+g+b == 255, and the zero channel depends on the segment (boundaries 85 and 170) |
| ColorUtils.WheelEnds | animations/animation_utils.py:88-95 | wheel(0) == wheel(255) == (0,255,0,0); wheel(85) is red; wheel(170) is blue |
| ColorUtils.WheelSteps | animations/animation_utils.py:83-95 | neighbouring positions (255 to 0 included) differ by at most 3 per channel |
| ColorUtils.ScaleChannel | animations/animation_utils.py:107-110 | `int(c * f)` for f in [0, 1] is floor(c * f) and lies in [0, c] |
| ColorUtils.ScaleColor | animations/animation_utils.py:97-111 | the scaled colour is valid and no brighter; factor 1 is the identity and factor 0 gives black |
| ColorUtils.ScaleChannelMono | animations/animation_utils.py:107-110 | a larger factor never gives a darker channel |
| ColorUtils.ScaleChannelShrinks | animations/animation_utils.py:107-110 | a factor below 1 strictly lowers a lit channel |
| ColorUtils.DecayReachesZero | animations/motion_animations.py:134-137 | k decays by the same factor below 1 leave at most c-k, so after c steps the channel is off |
| ColorUtils.BlendChannel | animations/animation_utils.py:141-144 | ratio 0 gives the first channel, ratio 1 the second, and any ratio in [0, 1] lies between them |
| ColorUtils.BlendColors | animations/animation_utils.py:133-146 | the blend is valid; ratio 0 gives color1 and ratio 1 gives color2 |
| ColorUtils.BlendSame | animations/animation_utils.py:133-146 | blending a colour with itself gives it back |
| Ranges.PyRange | animations/color_animations.py:100 | element k is start + k*step; all elements are before stop; the next one is not |
| Ranges.UpRampBounds | animations/color_animations.py:100-105 | range(0, top+1, 5) starts at 0, stays in [0, top] and ends within 5 of top |
| Ranges.DownRampBounds | animations/color_animations.py:106-111 | range(top, -1, -5) starts at top, stays in [0, top] and ends at top % 5 |
| Engine.Loop | animations/animation_utils.py:32-46 | the loop never ends on its own; it ends only when a poll sees the stop flag, when an update raises, or when the observations run out; no stop was seen before; on a stop or a caught error the log ends with the flush of an all-black strip |
| Engine.RunGeneric | animations/animation_utils.py:20-46 | on every exit path the strip is dark and that blackout is the last flush; a stop exit saw the flag at exactly that poll; an error exit rendered at least one frame |
| Engine.LoopWellOrdered | animations/animation_utils.py:33-38 | updates are logged in frame order, and each is followed at once by a flush or by the logged error |
| Engine.LoopShowsUpdates | animations/animation_utils.py:33-38 | log entry 2j is update k+j, and entry 2j+1 flushes exactly the strip that update returned when applied to the strip the j updates before it left, or logs its error when it raised |
| Engine.NoRaiseMeansStopOnly | animations/animation_utils.py:33-43 | an update that never raises never ends the loop with a caught error |
| Engine.RaiseEndsRun | animations/animation_utils.py:42-46 | the first update that raises ends the run after one frame, with the error caught |
| Engine.StopAtOnce | animations/animation_utils.py:33-46 | a flag already set renders nothing and leaves the strip black |
| Rainbow.BlockArith | animations/color_animations.py:29-30 | with bl = l/lc, `x // bl` is the integer quotient of x*lc by l, and `x % bl` is that division's remainder divided by lc |
| Rainbow.Locate | animations/color_animations.py:29-30 | the block index lies in [0, lc-1], so `run_colors[block+1]` is in bounds, and relPos lies in [0, bl) |
| Rainbow.Factors | animations/color_animations.py:31 | the two factors lie in [0, 1] and sum to 1 |
| Rainbow.MixChannel | animations/color_animations.py:33-37 | every mixed channel lies between the two palette values |
| Rainbow.RainbowAt | animations/color_animations.py:28-38 | every rainbow pixel is valid with white 0 |
| Rainbow.RainbowWithin | animations/color_animations.py:29-37 | a palette bounded by top gives pixels bounded by top |
| Rainbow.LegacyRainbowDim | animations.py:11-16 | the older palette keeps every channel in [0, 5] |
| Rainbow.LocatePeriodic | animations/color_animations.py:20-30 | moving the offset by l leaves block and relPos unchanged (bl * lc == l) |
| Rainbow.RainbowPeriodic | animations/color_animations.py:20-37 | with exact reals, a pixel's colour depends only on (i - startPos) mod l |
| Rainbow.FrameRotates | animations/color_animations.py:25-38 | with exact reals, the frame for s+1 is the frame for s rotated by one pixel |
| Rainbow.FramePeriodic | animations/color_animations.py:25-38 | the frame repeats after l start positions |
| Rainbow.Frame | animations/color_animations.py:28-38 | the frame for a start position has one pixel per strip index; pixel i is the rainbow at offset i - startPos, valid with white 0 |
| Rainbow.RainbowSweep | animations/color_animations.py:24-38 | on an empty strip, or with the stop seen at the first poll, the update leaves the strip unchanged; otherwise it leaves the frame of the last start position before the stop, or of l-1 when no stop is seen |
| Rainbow.RainbowSweepAsWritten | animations/color_animations.py:24-40 | an unstopped update always hands over the frame of start position l-1, whatever the strip showed |
| Rainbow.RainbowSweepShown | animations/color_animations.py:25-38 | with a flush per start position, frame j of the sweep is the frame for start j, up to the stop |
| Rainbow.RainbowSweepShownMoves | animations/color_animations.py:25-38 | with a flush per start position, consecutive frames are one-pixel rotations |
| Rainbow.RainbowThreePixels | animations/color_animations.py:14-40 | on three pixels the frames for starts 0 and 1 differ, but the update as written yields the frame for start 2 |
| Rainbow.WheelFrame | animations/color_animations.py:150-152 | pixel i of step j's frame is the wheel at (i + j) & 255, so it is valid with white 0 and r+g+b == 255 |
| Rainbow.FlashStepShows | animations/color_animations.py:150-161 | step j flushes the wheel frame for j, and on every tenth step a full-white strip twice and a dark strip twice; every flush is valid and strip-long |
| Rainbow.FlashSweep | animations/color_animations.py:146-161 | the steps from j flush nothing exactly when j is 256 or the stop is seen at once; otherwise they start with the wheel frame for j; every flush is valid and strip-long |
| Rainbow.FlashExactlyEveryTenth | animations/color_animations.py:155-161 | step j flushes a white flash if and only if j % 10 == 0 |
| Rainbow.FlashSweepLength | animations/color_animations.py:146-161 | a sweep flushes one frame per step run plus four buffers per flash |
| Rainbow.FlashCountFull | animations/color_animations.py:146-161 | the unstopped steps j..255 flash 26 - ceil(j/10) times |
| Rainbow.FullSweepFlashes | animations/color_animations.py:146-161 | an unstopped update flashes 26 times |
| Legacy.RainbowLoop | animations.py:22-46 | frame j is the frame for start j; the flag was clear before each rendered frame; a stop or the end of the loop leaves the strip black as the last flush; no error escapes |
| Legacy.LegacyFrameDim | animations.py:11-37 | every pixel of an older-rainbow frame has each colour channel at 5 or below |
| Legacy.LegacyRainbowRun | animations.py:22-46 | at most l frames, no channel above 5, dark on every exit |
| Legacy.BlinkLoop | animations.py:48-61 | the blink only ends at a stop, which leaves the strip black; any completed round also leaves it black |
| Legacy.BlinkRounds | animations.py:52-56 | every round flushes all-white, then all-black |
| Ramps.Steps | animations/color_animations.py:100-111 | a stepping update flushes each step's uniform strip twice, up to the first poll that sees the stop |
| Ramps.StepsStop | animations/color_animations.py:101-102 | a stop at the first poll shows nothing; an unseen stop shows every step |
| Ramps.PulseSteps | animations/color_animations.py:100-111 | the pulse has one step per white of range(0, max_white+1, 5) and of range(max_white, -1, -5), and every step keeps the red, green and blue arguments |
| Ramps.PulseWhites | animations/color_animations.py:100-111 | the pulse has 2 * (max_white//5 + 1) steps with unchanged colour channels; the whites lie in [0, max_white]; the rise starts at 0 and climbs by 5; the fall starts at max_white, drops by 5 and ends at max_white % 5 |
| Ramps.PulseValid | animations/color_animations.py:96-111 | with channels and max_white in range every step is a valid pixel |
| Ramps.RiseSteps | animations/color_animations.py:127 | range(0, 256, 5) is 0, 5, ..., 255 (52 values) |
| Ramps.FallSteps | animations/color_animations.py:133 | range(255, -1, -5) is 255, ..., 0 (52 values) |
| Ramps.CycleIndex | animations/color_animations.py:125-138 | step k of colour i is at position 104*i + k |
| Ramps.WarmFadeSteps | animations/color_animations.py:125-138 | the warm fade has 4 * 104 steps, and step k is step k % 104 of the white ramp of colour k / 104 |
| Ramps.WarmFadeShape | animations/color_animations.py:116-138 | for each of the four colours the white rises 0..255, then falls 255..0 (416 steps) |
| Ramps.WarmFadeEnds | animations/color_animations.py:127-138 | each colour's white peaks at 255 and ends at 0 |
| Ramps.Faded | animations/motion_animations.py:25 | `Color(c*b//255, ...)` is valid with white 0 and never brighter than the colour |
| Ramps.FadedMono | animations/motion_animations.py:25 | a brighter step is never darker |
| Ramps.BrightnessRamp | animations/motion_animations.py:22-33 | a colour's ramp has 104 steps, each valid, with white 0 and never brighter than the colour |
| Ramps.BrightnessRampIndex | animations/motion_animations.py:22-33 | rise step k has brightness 5k and fall step k has 255-5k |
| Ramps.BrightnessRampShape | animations/motion_animations.py:21-33 | each ramp goes from black up to the colour without darkening, then back down to black without brightening |
| Ramps.FadeSteps | animations/motion_animations.py:20-33 | the fade has 3 * 104 steps, and step k is step k % 104 of the ramp of colour k / 104 |
| Ramps.FadeShape | animations/motion_animations.py:14-33 | the fade runs the ramps of red, green and blue in turn (312 steps) |
| Sound.MaxOf | animations/sound_animations.py:33 | the maximum bounds every bin and is attained |
| Sound.Divisor | animations/sound_animations.py:33 | the divisor is positive and bounds every bin; it is 1 when all bins are 0, and the maximum otherwise |
| Sound.Intensity | animations/sound_animations.py:34-38 | every intensity lies in [0, 255]; a zero bin gives 0; a maximal non-zero bin gives 255 |
| Sound.IntensityMono | animations/sound_animations.py:34-38 | a louder bin never gets a lower intensity |
| Sound.BandPixel | animations/sound_animations.py:39-47 | the first n//3 pixels get red only, the next ones up to 2n//3 green only, the rest blue only; white is 0 |
| Sound.SoundFrame | animations/sound_animations.py:26-48 | an update completes if and only if 0 < n <= len(spectrum); written pixels carry their bin's intensity; pixels past the spectrum are untouched when it raises |
| Sound.SoundBands | animations/sound_animations.py:39-47 | each written pixel lights only its band's channel |
| Sound.SilenceIsDark | animations/sound_animations.py:33-34 | an all-zero block gives an all-zero strip, with no division by zero |
| Sound.LoudestIsFull | animations/sound_animations.py:33-38 | the loudest bin shows at 255 and louder bins are never dimmer |
| Sound.SoundEffect | animations/sound_animations.py:26-48 | the effect's update on any strip and frame completes exactly when the strip is non-empty and no longer than that frame's spectrum |
| Sound.SoundUpdate | animations/sound_animations.py:37-47 | the guarded pixel loop computes exactly SoundFrame's outcome, including the raise at the first index past the spectrum |
| Sound.LongStripStops | animations/sound_animations.py:12-50 | with 1024-sample blocks (513 bins), a longer strip ends the effect at its first frame with a caught error and a dark strip |
| StripWrites.PaintedValid | animations/random_animations.py:119-121 | painting a valid colour keeps the strip valid |
| StripWrites.PaintedTwice | animations/random_animations.py:24-30 | repainting the window keeps only the second colour |
| StripWrites.PaintWindow | animations/random_animations.py:19-21 | the guarded loop writes only on-strip indices of the window |
| StripWrites.DecayRgbw | animations/random_animations.py:124-129 | four-channel read-back decay is valid and no brighter; factor 1 keeps the pixel and factor 0 gives black |
| StripWrites.DecayRgb | animations/motion_animations.py:111-115 | colour-only decay written through `Color(r, g, b)` is no brighter and has white 0 |
| StripWrites.DecayChannels | animations/random_animations.py:125-128 | each decayed channel is `int(channel * decay)` of the pixel read back |
| StripWrites.DecayShrinks | animations/motion_animations.py:212-216 | a factor below 1 strictly lowers every lit channel |
| StripWrites.Decay | animations/motion_animations.py:133-137 | a decayed pixel is valid and no brighter |
| StripWrites.DecayPass | animations/random_animations.py:123-129 | every pixel is rewritten as its decayed value |
| RandomEffects.UnmaskedRed | animations/random_animations.py:27 | for a colour without white, `color >> 16` without a mask is the red channel |
| RandomEffects.FireworkShade | animations/random_animations.py:26-30 | the faded burst colour is `c * b // 255` per channel, with white 0 |
| RandomEffects.FireworkDims | animations/random_animations.py:23-30 | a lower brightness is never brighter, and 255 gives the burst colour |
| RandomEffects.FireworkSteps | animations/random_animations.py:23 | range(255, 0, -5) is 255, ..., 5 (51 values) |
| RandomEffects.FireworkNext | animations/random_animations.py:23-31 | repainting flush k's window at brightness 255-5k gives flush k+1 |
| RandomEffects.FireworkFlush | animations/random_animations.py:19-31 | a flush keeps the strip length and every pixel outside [pos-3, pos+3]; inside, each pixel is valid, white 0, never brighter than the burst colour, and the first flush shows the burst colour itself |
| RandomEffects.FireworkUpdate | animations/random_animations.py:16-32 | an empty strip raises; otherwise it flushes the burst and its 51 fades, and leaves the last fade |
| RandomEffects.FireworkFades | animations/random_animations.py:19-31 | only [pos-3, pos+3] changes; fade k shows the burst colour at brightness 260-5k there; no flush is brighter than the one before |
| RandomEffects.WalkStep | animations/random_animations.py:171-175 | after a ±1 step the position is in [0, n) and equals (pos + step) mod n |
| RandomEffects.WalkUpdate | animations/random_animations.py:169-181 | the walker writes its new position only, and that position is on the strip |
| RandomEffects.Walk | animations/random_animations.py:169-175 | every position of a walk is on the strip |
| RandomEffects.WalkIsSum | animations/random_animations.py:169-175 | after k steps the walker is at (start + sum of steps) mod n |
| RandomEffects.MeteorShowerUpdate | animations/random_animations.py:116-130 | a strip shorter than the meteor raises and is left unchanged; otherwise the meteor window is painted on-strip only and flushed, and then every pixel is decayed on four channels |
| RandomEffects.RainComets | animations/random_animations.py:208-213 | each pixel keeps its value or takes the colour of a comet covering it; uncovered pixels are unchanged; the last comet wins |
| RandomEffects.CometRain | animations/random_animations.py:205-214 | the strip is cleared first; a strip shorter than a comet raises after the clear; every pixel is black or a covering comet's colour |
| RandomEffects.CometRainGaps | animations/random_animations.py:206-213 | a pixel no comet covers is black |
| RandomEffects.Ring | animations/random_animations.py:228-230 | a wave paints exactly the on-strip pixels at the radius's distance from the centre |
| RandomEffects.Waves | animations/random_animations.py:225-232 | frame k has painted exactly the pixels at distance 1..k+1, one wave per clear poll, up to n//2 - 1 |
| RandomEffects.ExplosionReach | animations/random_animations.py:225-232 | a rendered wave was polled clear and lies below n//2; the centre is never painted |
| RandomEffects.PixelExplosion | animations/random_animations.py:221-232 | no explosion leaves the strip unchanged; an empty strip raises only if it explodes; an explosion leaves the last wave flushed, where exactly the pixels at distance 1 to min(stop poll, n//2 - 1) from the centre take the colour and the centre keeps its value |
| RandomEffects.LavaExplosion | animations/random_animations.py:239-249 | an empty strip raises; exactly the pixels at distance 1 to min(stop poll, n//2 - 1) from the centre take the lava colour, and every changed pixel is a valid lava colour |
| RandomEffects.GlitterExtremes | animations/random_animations.py:189-197 | the result is valid; probability 0 gives a dark strip and probability 1 lights every pixel |
| RandomEffects.GlitterMono | animations/random_animations.py:100-107 | with the same draws, a pixel lit at a lower probability is lit with its drawn colour at any higher probability |
| RandomEffects.Glitter | animations/random_animations.py:189-197 | each pixel is its drawn colour when its chance is below the probability and black otherwise |
| RandomEffects.Sparkles | animations/random_animations.py:98-107 | each pixel is its drawn colour when its chance is below 0.05 and black otherwise |
| RandomEffects.GlitterUpdate | animations/random_animations.py:189-197 | the per-pixel loop sets each pixel to its drawn colour or to black by its chance, as the glitter frame states |
| RandomEffects.SparklesWithinGlitter | animations/random_animations.py:98-107 | with the same draws, every pixel the sparkles (0.05) light is lit with its drawn colour by the default glitter (0.1) |
| RandomEffects.LightningUpdate | animations/random_animations.py:55-63 | writing every pixel dim blue, then full white on a flash, flushes two white strips when the chance is below 0.05 and one blue strip otherwise, and returns the last strip flushed |
| RandomEffects.Lightning | animations/random_animations.py:55-63 | an update flushes twice exactly when the chance is below 0.05, and once otherwise; each flush is a uniform full-white strip on a flash and dim blue otherwise |
| RandomEffects.LightningFlushes | animations/random_animations.py:55-63 | every flushed strip is valid; a flash flushes the same full-white strip twice, at least as bright as the storm's blue in every channel; otherwise the dim blue is flushed once |
| Motion.TailStep | animations/motion_animations.py:129-137 | the guards keep writes on the strip; the head takes the colour; exactly the on-strip tail pixels decay; nothing brightens |
| Motion.TailPass | animations/motion_animations.py:163-177 | one flush per head position up to the stop, with the head at its position in each |
| Motion.LarsonUpdate | animations/motion_animations.py:124-153 | a forward pass then a backward pass: up to 2n flushes, with the head at k and then at 2n-1-k |
| Motion.CometUpdate | animations/motion_animations.py:162-177 | up to n flushes with the head at k; the strip stays valid |
| Motion.TailDecays | animations/motion_animations.py:209-216 | the white comet's decay lowers lit white too; the colour-only decay leaves white at 0 |
| Motion.MeteorStep | animations/motion_animations.py:104-115 | the head is painted on-strip only and flushed; then every pixel is decayed with white 0 |
| Motion.MeteorUpdate | animations/motion_animations.py:99-115 | up to n flushes, each with the head window white; afterwards every pixel has white 0 |

## Left out

- **The strip driver.** `rpi_ws281x`, `Color`, `setBrightness` and the strip's hardware are not modelled. The strip is a pixel sequence, and an index off the strip is a precondition violation (`Pixels.SetPixel`).
- **Sleeps, threads and update speeds.** These only pace the frames. The stop flag is reduced to the values its polls observe.
- **Audio input.** PyAudio and `numpy.fft.rfft` are not modelled. The magnitude spectrum is an input of non-negative reals.
- **Floating-point rounding.** Fractions are exact reals, so results that depend on IEEE rounding are not claimed bit-exact. In the rainbow on a 5-pixel strip, offset `i - startPos = -4` gives `(101, 153, 0)` in double precision but `(102, 153, 0)` with exact reals, while offset 1 gives `(102, 153, 0)` both ways. So `Rainbow.RainbowPeriodic`, `Rainbow.LocatePeriodic`, `Rainbow.FrameRotates`, `Rainbow.FramePeriodic` and `Rainbow.RainbowSweepShownMoves` are statements about the exact-real model, not about the floating-point program.
- **The legacy `except` branches.** In the older module's rainbow and blink (`animations.py`, lines 57-58 for the blink), no statement in the loop can raise in the model. So `Legacy.RainbowLoop` and `Legacy.BlinkLoop` have no error exit. Their `finally` blackout is modelled.
- **Theater chase.** It writes `i + q` without a bounds check, so no in-range claim is made for it.
- **Pulse effect.** `run_pulse_animation` reads `.r`, `.g` and `.b` from an integer colour and cannot run as written.
- **Floating-point effects.** Bouncing balls (float positions) and the wave effect (`math.sin`) are not modelled.
- **Other effects not modelled:** the twinkle in `animations/motion_animations.py` (random colours on every pixel, then about half switched off, polling the stop flag per pixel), colour wipe, the current module's blink, cool white twinkle (glitter's rule with the comparison reversed), strobe, random white strobes, random colour shifts, fireplace, aurora and holiday twinkle.
- **Program shell.** `main.py` (hardware set-up, menu, and a copy of the rainbow), `settings.py`, `menu.py` and `utils.py` are not part of this model.
- **Audio normalisation.** Each block is normalised by its own maximum, only the first n bins are kept, and a spectrum shorter than the strip raises. Nothing is carried from one block to the next, so the model takes one spectrum per frame.
- **Frame period.** The loop sleeps a fixed time after each flush. The sleep does not affect pixel values.
- **Channel values.** The code writes channel values as computed. Validity is proved wherever the inputs are in range, for example `Ramps.PulseValid` needs `max_white <= 255`.
- **Short spectra.** Where the spectrum is shorter than the strip, the code raises `IndexError` at the first index past the spectrum (`Sound.SoundFrame`, `Sound.LongStripStops`).
- ColorUtils.WheelRgbw: positions outside [0, 255] are not modelled, since the only caller masks its argument with `& 255`.
- Sound.SoundFrame: the update's own `show()` on line 48 flushes the same strip that the loop flushes next, so it is not listed as a separate flush.
- RandomEffects.CometRain: the flush of the cleared strip that `clear_strip` makes inside the update is not returned. The result is the strip the loop flushes.
- RandomEffects.WalkUpdate: the initial `randint(0, n - 1)` runs outside the update, and it raises on an empty strip before the loop starts. The model starts from a position on a non-empty strip. The update's closing `show()` on line 181 flushes the strip that the loop flushes next, so it is not listed as a separate flush.
- RandomEffects.Sparkles: the update's closing `show()` on line 108 flushes the strip that the loop flushes next, so it is not listed as a separate flush.
- RandomEffects.GlitterUpdate: the update's closing `show()` on line 198 flushes the strip that the loop flushes next, so it is not listed as a separate flush.
- RandomEffects.MeteorShowerUpdate: only the flush on line 122 (the painted meteor) is returned as `shown`. The flush of the decayed strip on line 130 shows the final strip `o.buf`, which the loop flushes next, so it is not listed separately.
- Ramps.Steps: the update's final buffer is not returned separately. It is the last flushed buffer, or the unchanged strip when the first poll sees the stop.
- Motion.TailPass: the contents of the tail are stated per step by `Motion.TailStep` and not composed over a whole pass.

## Findings

| source | as written | input that shows it | evidently intended | confidence | as-written member | corrected member |
|---|---|---|---|---|---|---|
| animations/color_animations.py:24-40 | the update renders a frame for every start position but never flushes inside its loop, so the generic loop flushes only the frame of the last start position and the rainbow stands still | a 3-pixel strip: frames for starts 0, 1 and 2 are RGB, BRG and GBR, but every update hands over GBR | flush each start position's frame, as the older rainbow in animations.py does (line 40 there), so consecutive flushed frames rotate by one pixel | high, not executed | Rainbow.RainbowSweepAsWritten | Rainbow.RainbowSweepShownMoves |

=== FILE: arith.dfy ===
/** Euclidean division facts used by the index arithmetic of the effects. */
module Arith {

  function Min(a: int, b: int): int {
    if a <= b then a else b
  }

  /** Quotient and remainder by a positive divisor are unique. */
  lemma DivModUnique(n: int, l: int, q: int, r: int)
    requires l > 0 && 0 <= r < l && n == q * l + r
    ensures n / l == q && n % l == r
  {
    var q', r' := n / l, n % l;
    var t := q' - q;
    assert t * l == r - r';
  }

  lemma ShiftByMultiple(m: int, l: int, k: int)
    requires l > 0
    ensures (m + l * k) / l == m / l + k
    ensures (m + l * k) % l == m % l
  {
    var q, r := m / l, m % l;
    assert m + l * k == (q + k) * l + r;
    DivModUnique(m + l * k, l, q + k, r);
  }

  /** Adding to a remainder and reducing again is reducing the sum. */
  lemma ModAddLeft(x: int, y: int, l: int)
    requires l > 0
    ensures (x % l + y) % l == (x + y) % l
  {
    ShiftByMultiple(x % l + y, l, x / l);
    assert x % l + y + l * (x / l) == x + y;
  }
}

=== FILE: color_utils.dfy ===
/** The colour-compositing helpers of the animation utilities: brightness
    fade, hue wheel, factor scaling and blending. Floating-point factors are
    modelled as exact reals; Python's `int(x)` truncates toward zero. */
module ColorUtils {
  import opened Pixels

  /** Python's `int(x)` on a float: truncation toward zero. */
  function Trunc(x: real): (n: int)
    ensures x >= 0.0 ==> n as real <= x < n as real + 1.0
    ensures x <= 0.0 ==> n as real - 1.0 < x <= n as real
  {
    if x >= 0.0 then x.Floor else -((-x).Floor)
  }

  /** Truncation is monotone and exact on integers. */
  lemma TruncMono(x: real, y: real)
    requires 0.0 <= x <= y
    ensures Trunc(x) <= Trunc(y)
  {
  }

  /** Truncation keeps a non-negative value between integer bounds. */
  lemma TruncBetween(x: real, lo: int, hi: int)
    requires 0 <= lo && lo as real <= x <= hi as real
    ensures lo <= Trunc(x) <= hi
    ensures x < hi as real ==> Trunc(x) < hi
  {
  }

  lemma TruncOfInt(n: int)
    ensures Trunc(n as real) == n
  {
  }

  lemma MulNonneg(a: real, b: real)
    requires a >= 0.0 && b >= 0.0
    ensures a * b >= 0.0
  {
  }

  lemma MulPos(a: real, b: real)
    requires a > 0.0 && b > 0.0
    ensures a * b > 0.0
  {
  }

  /** Multiplying by a factor in [0, 1] moves a number toward zero. */
  lemma MulUnit(a: real, f: real)
    requires 0.0 <= f <= 1.0
    ensures a >= 0.0 ==> 0.0 <= a * f <= a
    ensures a <= 0.0 ==> a <= a * f <= 0.0
  {
    var g := 1.0 - f;
    if a >= 0.0 {
      MulNonneg(a, f);
      MulNonneg(a, g);
      assert a * g == a - a * f;
    } else {
      MulNonneg(-a, f);
      MulNonneg(-a, g);
      assert (-a) * g == a * f - a;
      assert (-a) * f == -(a * f);
    }
  }

  /** Linear interpolation `a * (1 - t) + b * t`. */
  function Lerp(a: real, b: real, t: real): real {
    a * (1.0 - t) + b * t
  }

  /** A linear interpolation stays between its end points. */
  lemma LerpBetween(a: real, b: real, t: real)
    requires 0.0 <= t <= 1.0
    ensures a <= b ==> a <= Lerp(a, b, t) <= b
    ensures b <= a ==> b <= Lerp(a, b, t) <= a
  {
    if a <= b {
      LerpUpward(a, b, t);
    } else {
      LerpUpward(b, a, 1.0 - t);
      assert Lerp(a, b, t) == Lerp(b, a, 1.0 - t);
    }
  }

  /** The interpolation moves away from `a` by the fraction `t` of the gap. */
  lemma LerpFromStart(a: real, b: real, t: real)
    ensures Lerp(a, b, t) == a + (b - a) * t
  {
    assert a * (1.0 - t) == a - a * t;
    assert (b - a) * t == b * t - a * t;
  }

  /** From the lower end, a fraction of the gap stays within the gap. */
  lemma LerpUpward(lo: real, hi: real, t: real)
    requires lo <= hi && 0.0 <= t <= 1.0
    ensures lo <= Lerp(lo, hi, t) <= hi
  {
    var d := hi - lo;
    MulUnit(d, t);
    LerpFromStart(lo, hi, t);
    AddWithin(lo, hi, d * t, Lerp(lo, hi, t));
  }

  /** Adding a part of the gap to its lower end stays within the gap; the
      part is a parameter, so the step is linear whatever product it is. */
  lemma AddWithin(lo: real, hi: real, part: real, x: real)
    requires x == lo + part && 0.0 <= part <= hi - lo
    ensures lo <= x <= hi
  {
  }

  // ---------------------------------------------------------------------
  // fade_color: integer brightness scaling

  /** One channel scaled by `brightness / 255` with floor division `//`. */
  function FadeChannel(c: int, brightness: int): (v: int)
    requires IsChannel(c) && IsChannel(brightness)
    ensures 0 <= v <= c
    ensures brightness == 255 ==> v == c
    ensures brightness == 0 ==> v == 0
  {
    c * brightness / 255
  }

  /** A higher brightness never gives a darker channel. */
  lemma FadeChannelMono(c: int, b1: int, b2: int)
    requires IsChannel(c) && IsChannel(b1) && IsChannel(b2) && b1 <= b2
    ensures FadeChannel(c, b1) <= FadeChannel(c, b2)
  {
    assert c * b1 <= c * b2 by {
      assert c * (b2 - b1) >= 0;
    }
  }

  /** `fade_color(color, brightness)` on a packed colour. */
  function FadeColor(color: Packed, brightness: int): (p: Pixel)
    requires IsChannel(brightness)
    ensures Valid(p) && Dimmer(p, Unpack(color))
    ensures brightness == 255 ==> p == Unpack(color)
    ensures brightness == 0 ==> p == Black
  {
    var c := Unpack(color);
    Pixel(FadeChannel(c.r, brightness), FadeChannel(c.g, brightness),
          FadeChannel(c.b, brightness), FadeChannel(c.w, brightness))
  }

  /** Fading a valid pixel's packed word fades exactly its own channels. */
  lemma FadeColorOfPixel(p: Pixel, brightness: int)
    requires Valid(p) && IsChannel(brightness)
    ensures FadeColor(Pack(p), brightness).r == p.r * brightness / 255
    ensures FadeColor(Pack(p), brightness).g == p.g * brightness / 255
    ensures FadeColor(Pack(p), brightness).b == p.b * brightness / 255
    ensures FadeColor(Pack(p), brightness).w == p.w * brightness / 255
  {
    UnpackPack(p);
  }

  /** Full brightness is the identity: fading a re-packed full-brightness
      colour is the same as fading the original. */
  lemma FadeFullThenFade(color: Packed, brightness: int)
    requires IsChannel(brightness)
    ensures FadeColor(Pack(FadeColor(color, 255)), brightness) == FadeColor(color, brightness)
  {
    UnpackPack(Unpack(color));
  }

  /** `fade_color` is monotone in the brightness, channel by channel. */
  lemma FadeColorMono(color: Packed, b1: int, b2: int)
    requires IsChannel(b1) && IsChannel(b2) && b1 <= b2
    ensures Dimmer(FadeColor(color, b1), FadeColor(color, b2))
  {
    var c := Unpack(color);
    FadeChannelMono(c.r, b1, b2);
    FadeChannelMono(c.g, b1, b2);
    FadeChannelMono(c.b, b1, b2);
    FadeChannelMono(c.w, b1, b2);
  }

  // ---------------------------------------------------------------------
  // wheel_rgbw: three 85-wide linear hue ramps

  function WheelRgbw(pos: int): (p: Pixel)
    requires 0 <= pos <= 255
    ensures Valid(p) && p.w == 0
    ensures p.r + p.g + p.b == 255
    ensures pos < 85 ==> p.b == 0
    ensures 85 <= pos < 170 ==> p.g == 0
    ensures 170 <= pos ==> p.r == 0
  {
    if pos < 85 then
      Pixel(pos * 3, 255 - pos * 3, 0, 0)
    else if pos < 170 then
      var q := pos - 85;
      Pixel(255 - q * 3, 0, q * 3, 0)
    else
      var q := pos - 170;
      Pixel(0, q * 3, 255 - q * 3, 0)
  }

  /** The ramp closes: the last position shows the same colour as the first,
      and the segment boundaries are pure red and pure blue. */
  lemma WheelEnds()
    ensures WheelRgbw(0) == WheelRgbw(255) == Pixel(0, 255, 0, 0)
    ensures WheelRgbw(85) == Pixel(255, 0, 0, 0)
    ensures WheelRgbw(170) == Pixel(0, 0, 255, 0)
  {
  }

  function Dist(a: int, b: int): nat {
    if a <= b then b - a else a - b
  }

  /** Neighbouring wheel positions (cyclically, 255 to 0 included) differ by
      at most 3 in every channel: the wheel has no jumps. */
  lemma WheelSteps(pos: int)
    requires 0 <= pos <= 255
    ensures var p, q := WheelRgbw(pos), WheelRgbw((pos + 1) % 256);
      Dist(p.r, q.r) <= 3 && Dist(p.g, q.g) <= 3 && Dist(p.b, q.b) <= 3
  {
  }

  // ---------------------------------------------------------------------
  // scale_color: factor scaling with truncation

  /** `int(a * f)` for `a` in [0, hi] and `f` in [0, 1]. The product is
      kept between reals so that the integer bound enters only through `hi`. */
  function TruncScaled(a: real, f: real, hi: int): (v: int)
    requires 0.0 <= a <= hi as real && 0.0 <= f <= 1.0
    ensures 0 <= v <= hi
    ensures v as real <= a * f < v as real + 1.0
  {
    MulUnit(a, f);
    TruncBetween(a * f, 0, hi);
    Trunc(a * f)
  }

  /** One channel multiplied by a factor in [0, 1] and truncated. */
  function ScaleChannel(c: int, f: real): (v: int)
    requires IsChannel(c) && 0.0 <= f <= 1.0
    ensures 0 <= v <= c
    ensures v as real <= c as real * f < v as real + 1.0
    ensures f == 1.0 ==> v == c
    ensures f == 0.0 ==> v == 0
  {
    assert f == 1.0 ==> c as real * f == c as real;
    assert f == 0.0 ==> c as real * f == 0.0;
    TruncScaled(c as real, f, c)
  }

  /** `scale_color(color, scale_factor)` on a packed colour. */
  function ScaleColor(color: Packed, f: real): (p: Pixel)
    requires 0.0 <= f <= 1.0
    ensures Valid(p) && Dimmer(p, Unpack(color))
    ensures f == 1.0 ==> p == Unpack(color)
    ensures f == 0.0 ==> p == Black
  {
    var c := Unpack(color);
    Pixel(ScaleChannel(c.r, f), ScaleChannel(c.g, f), ScaleChannel(c.b, f), ScaleChannel(c.w, f))
  }

  /** A larger factor never gives a darker channel. */
  lemma ScaleChannelMono(c: int, f1: real, f2: real)
    requires IsChannel(c) && 0.0 <= f1 <= f2 <= 1.0
    ensures ScaleChannel(c, f1) <= ScaleChannel(c, f2)
  {
    MulNonneg(c as real, f1);
    MulNonneg(c as real, f2 - f1);
    assert c as real * f2 - c as real * f1 == c as real * (f2 - f1);
    TruncMono(c as real * f1, c as real * f2);
  }

  /** With a factor below 1, a lit channel strictly decreases. */
  lemma ScaleChannelShrinks(c: int, f: real)
    requires IsChannel(c) && 0.0 <= f < 1.0 && c > 0
    ensures ScaleChannel(c, f) < c
  {
    var x, g := c as real, 1.0 - f;
    var y := x * f;
    MulPos(x, g);
    MulNonneg(x, f);
    assert x * g == x - y;
    assert 0.0 <= y < x;
    TruncBetween(y, 0, c);
  }

  /** The channel after `k` decay steps by the same factor. */
  function DecayTimes(c: int, f: real, k: nat): (v: int)
    requires IsChannel(c) && 0.0 <= f <= 1.0
    ensures IsChannel(v)
  {
    if k == 0 then c else ScaleChannel(DecayTimes(c, f, k - 1), f)
  }

  /** Repeated decay by a factor below 1 loses at least one unit per step
      while lit, so after `c` steps the channel is off. */
  lemma {:induction false} DecayReachesZero(c: int, f: real, k: nat)
    requires IsChannel(c) && 0.0 <= f < 1.0
    ensures DecayTimes(c, f, k) <= if k <= c then c - k else 0
  {
    if k > 0 {
      DecayReachesZero(c, f, k - 1);
      var prev := DecayTimes(c, f, k - 1);
      if prev > 0 {
        ScaleChannelShrinks(prev, f);
      }
    }
  }

  // ---------------------------------------------------------------------
  // blend_colors: per-channel linear interpolation with truncation

  function BlendChannel(c1: int, c2: int, ratio: real): (v: int)
    requires IsChannel(c1) && IsChannel(c2) && 0.0 <= ratio <= 1.0
    ensures ratio == 0.0 ==> v == c1
    ensures ratio == 1.0 ==> v == c2
    ensures c1 <= c2 ==> c1 <= v <= c2
    ensures c2 <= c1 ==> c2 <= v <= c1
  {
    var a, b := c1 as real, c2 as real;
    var x := Lerp(a, b, ratio);
    LerpBetween(a, b, ratio);
    assert c1 <= c2 ==> c1 <= Trunc(x) <= c2 by {
      if c1 <= c2 {
        assert a <= b;
        TruncBetween(x, c1, c2);
      }
    }
    assert c2 <= c1 ==> c2 <= Trunc(x) <= c1 by {
      if c2 <= c1 {
        assert b <= a;
        TruncBetween(x, c2, c1);
      }
    }
    Trunc(x)
  }

  /** `blend_colors(color1, color2, ratio)` on packed colours. */
  function BlendColors(color1: Packed, color2: Packed, ratio: real): (p: Pixel)
    requires 0.0 <= ratio <= 1.0
    ensures Valid(p)
    ensures ratio == 0.0 ==> p == Unpack(color1)
    ensures ratio == 1.0 ==> p == Unpack(color2)
  {
    var a, b := Unpack(color1), Unpack(color2);
    Pixel(BlendChannel(a.r, b.r, ratio), BlendChannel(a.g, b.g, ratio),
          BlendChannel(a.b, b.b, ratio), BlendChannel(a.w, b.w, ratio))
  }

  /** Blending a colour with itself gives that colour back, whatever the ratio. */
  lemma BlendSame(color: Packed, ratio: real)
    requires 0.0 <= ratio <= 1.0
    ensures BlendColors(color, color, ratio) == Unpack(color)
  {
  }
}

=== FILE: engine.dfy ===
/** The generic frame loop every effect runs in (`run_generic_animation`):
    while the stop flag is not observed set, call the effect's update and then
    flush the strip; any exception raised by the update is caught and logged;
    on every way out the strip is blacked out.

    The stop event is the sequence of values the loop observes when it polls
    the flag; the pacing sleep is left out. An observation sequence that ends
    before the flag is seen set describes a run that is still going. */
module Engine {
  import opened Pixels

  /** What one call of an effect's update does: it returns normally, or it
      raises after having left the strip in some state. */
  datatype Outcome = Completed(buf: Buffer) | Raised(buf: Buffer)

  /** An effect's update: the outcome for the current strip contents and the
      frame number (which stands for that frame's random draws or audio
      block). The strip's pixel count is fixed, so no update changes it. */
  type Update = f: (Buffer, nat) -> Outcome | forall b: Buffer, k: nat :: |f(b, k).buf| == |b|
    witness (b: Buffer, k: nat) => Completed(b)

  datatype Event = Updated(frame: nat) | Shown(buf: Buffer) | ErrorLogged

  datatype Exit = StopObserved | ErrorCaught | Finished | StillRunning

  /** A run: how it ended, how many frames it rendered, what it did, and the
      strip contents it left behind. */
  datatype Run = Run(exit: Exit, frames: nat, log: seq<Event>, final: Buffer)

  /** The stop flag was not observed set at any of the first `k` polls. */
  predicate NoStopBefore(stops: seq<bool>, k: nat)
    requires k <= |stops|
  {
    forall j :: 0 <= j < k ==> !stops[j]
  }

  /** Updates are logged in frame order, each immediately followed by a
      flush or by the logged error (`LoopShowsUpdates` says which flush). */
  predicate WellOrdered(log: seq<Event>, first: nat) {
    forall i :: 0 <= i < |log| && log[i].Updated? ==>
      i % 2 == 0 && log[i].frame == first + i / 2 && i + 1 < |log|
      && (log[i + 1].Shown? || log[i + 1].ErrorLogged?)
  }

  /** The loop from its `k`-th poll of the stop flag on. */
  function Loop(buf: Buffer, stops: seq<bool>, update: Update, k: nat): (r: Run)
    requires k <= |stops|
    ensures |r.final| == |buf|
    ensures r.exit != Finished
    ensures k + r.frames <= |stops|
    ensures forall j :: k <= j < k + r.frames ==> !stops[j]
    ensures r.exit == StopObserved ==>
      k + r.frames < |stops| && stops[k + r.frames] && |r.log| == 2 * r.frames + 1
    ensures r.exit == ErrorCaught ==>
      r.frames > 0 && |r.log| == 2 * r.frames + 1
      && r.log[|r.log| - 3] == Updated(k + r.frames - 1) && r.log[|r.log| - 2] == ErrorLogged
    ensures r.exit == StillRunning ==>
      k + r.frames == |stops| && |r.log| == 2 * r.frames
      && (r.frames == 0 ==> r.final == buf) && (r.frames > 0 ==> r.log[|r.log| - 1] == Shown(r.final))
    ensures r.exit != StillRunning ==>
      IsDark(r.final) && r.log[|r.log| - 1] == Shown(r.final)
    decreases |stops| - k
  {
    if k == |stops| then
      Run(StillRunning, 0, [], buf)
    else if stops[k] then
      Run(StopObserved, 0, [Shown(Blank(|buf|))], Blank(|buf|))
    else
      match update(buf, k)
      case Raised(b) =>
        Run(ErrorCaught, 1, [Updated(k), ErrorLogged, Shown(Blank(|b|))], Blank(|b|))
      case Completed(b) =>
        var rest := Loop(b, stops, update, k + 1);
        Run(rest.exit, rest.frames + 1, [Updated(k), Shown(b)] + rest.log, rest.final)
  }

  /** `run_generic_animation(strip, stop_event, update_function)`. */
  function RunGeneric(buf: Buffer, stops: seq<bool>, update: Update): (r: Run)
    ensures |r.final| == |buf| && r.frames <= |stops|
    ensures r.exit != StillRunning ==> IsDark(r.final) && |r.log| > 0 && r.log[|r.log| - 1] == Shown(r.final)
    ensures r.exit == StopObserved ==> r.frames < |stops| && stops[r.frames] && NoStopBefore(stops, r.frames)
    ensures r.exit == ErrorCaught ==> r.frames > 0 && NoStopBefore(stops, r.frames)
    ensures r.exit == StillRunning ==> r.frames == |stops| && NoStopBefore(stops, |stops|)
  {
    Loop(buf, stops, update, 0)
  }

  /** Every update the loop makes is logged in frame order and is followed
      at once by a flush or by the logged error. */
  lemma {:induction false} LoopWellOrdered(buf: Buffer, stops: seq<bool>, update: Update, k: nat)
    requires k <= |stops|
    ensures WellOrdered(Loop(buf, stops, update, k).log, k)
    decreases |stops| - k
  {
    if k < |stops| && !stops[k] && update(buf, k).Completed? {
      var b := update(buf, k).buf;
      LoopWellOrdered(b, stops, update, k + 1);
      LoopHead(buf, stops, update, k);
      WellOrderedCons(b, Loop(b, stops, update, k + 1).log, k);
    } else {
      LoopEndWellOrdered(buf, stops, update, k);
    }
  }

  /** A loop that stops, runs out of observations or catches an error at
      its first poll logs at most that one update. */
  lemma LoopEndWellOrdered(buf: Buffer, stops: seq<bool>, update: Update, k: nat)
    requires k <= |stops|
    requires k == |stops| || stops[k] || update(buf, k).Raised?
    ensures WellOrdered(Loop(buf, stops, update, k).log, k)
  {
    if k < |stops| && !stops[k] {
      LoopHead(buf, stops, update, k);
    }
  }

  /** An update followed by its flush, in front of a well-ordered log from
      the next frame, gives a well-ordered log. */
  lemma WellOrderedCons(b: Buffer, rest: seq<Event>, k: nat)
    requires WellOrdered(rest, k + 1)
    ensures WellOrdered([Updated(k), Shown(b)] + rest, k)
  {
    var log := [Updated(k), Shown(b)] + rest;
    forall i | 0 <= i < |log| && log[i].Updated?
      ensures i % 2 == 0 && log[i].frame == k + i / 2 && i + 1 < |log|
        && (log[i + 1].Shown? || log[i + 1].ErrorLogged?)
    {
      if i >= 2 {
        assert log[i] == rest[i - 2];
        assert i + 1 < |log| ==> log[i + 1] == rest[i - 1];
      }
    }
  }

  /** What the loop logs right after an update: the flush of the strip it
      left, or the logged error when it raised. */
  function Response(o: Outcome): Event {
    match o
    case Completed(b) => Shown(b)
    case Raised(_) => ErrorLogged
  }

  /** The strip the loop hands to update `k + j`: the result of the `j`
      updates from frame `k` on, each applied to the strip the one before
      it left. */
  function After(buf: Buffer, update: Update, k: nat, j: nat): Buffer
    decreases j
  {
    if j == 0 then buf else After(update(buf, k).buf, update, k + 1, j - 1)
  }

  /** Entry `2j` of the log is update `k + j`, and entry `2j + 1` is the
      flush of exactly the strip that update returned, applied to the strip
      the updates before it left, or the logged error when it raised. */
  lemma {:induction false} LoopShowsUpdates(buf: Buffer, stops: seq<bool>, update: Update, k: nat, j: nat)
    requires k <= |stops|
    ensures ShowsUpdate(buf, stops, update, k, j)
    decreases j
  {
    if k < |stops| && j > 0 {
      LoopShowsUpdates(update(buf, k).buf, stops, update, k + 1, j - 1);
      LoopStep(buf, stops, update, k, j);
    } else if k < |stops| && !stops[k] {
      LoopHead(buf, stops, update, k);
      assert After(buf, update, k, j) == buf;
    }
  }

  /** Entry `j` of the log as `LoopShowsUpdates` states it. */
  predicate ShowsUpdate(buf: Buffer, stops: seq<bool>, update: Update, k: nat, j: nat)
    requires k <= |stops|
  {
    var log := Loop(buf, stops, update, k).log;
    2 * j + 1 < |log| ==>
      log[2 * j] == Updated(k + j)
      && log[2 * j + 1] == Response(update(After(buf, update, k, j), k + j))
  }

  /** The induction step of `LoopShowsUpdates`: entry `j - 1` of the loop
      from the next frame gives entry `j` of the loop from this one. */
  lemma LoopStep(buf: Buffer, stops: seq<bool>, update: Update, k: nat, j: nat)
    requires k < |stops| && j > 0
    requires ShowsUpdate(update(buf, k).buf, stops, update, k + 1, j - 1)
    ensures ShowsUpdate(buf, stops, update, k, j)
  {
    if 2 * j + 1 < |Loop(buf, stops, update, k).log| {
      LoopTail(buf, stops, update, k, j);
      assert After(buf, update, k, j) == After(update(buf, k).buf, update, k + 1, j - 1);
    }
  }

  /** Past its first update and flush, the log of the loop is the log of
      the loop from the next frame, on the strip that update left. */
  lemma LoopTail(buf: Buffer, stops: seq<bool>, update: Update, k: nat, j: nat)
    requires k <= |stops| && j > 0 && 2 * j + 1 < |Loop(buf, stops, update, k).log|
    ensures k < |stops| && update(buf, k).Completed?
    ensures var log, rest := Loop(buf, stops, update, k).log, Loop(update(buf, k).buf, stops, update, k + 1).log;
      2 * (j - 1) + 1 < |rest| && log[2 * j] == rest[2 * (j - 1)] && log[2 * j + 1] == rest[2 * (j - 1) + 1]
  {
    LoopHead(buf, stops, update, k);
  }

  /** The first two log entries of a loop whose first poll does not see
      the stop: the update, then its response, and after a completed
      update the log of the loop from the next frame. */
  lemma LoopHead(buf: Buffer, stops: seq<bool>, update: Update, k: nat)
    requires k < |stops| && !stops[k]
    ensures var log, o := Loop(buf, stops, update, k).log, update(buf, k);
      |log| >= 2 && log[0] == Updated(k) && log[1] == Response(o)
      && (o.Raised? ==> |log| == 3) && (|log| > 3 ==> o.Completed?)
      && (o.Completed? ==> log == [Updated(k), Shown(o.buf)] + Loop(o.buf, stops, update, k + 1).log)
  {
  }

  /** An update that never raises never ends the loop with a caught error:
      the loop only ends when the stop flag is observed. */
  lemma {:induction false} NoRaiseMeansStopOnly(buf: Buffer, stops: seq<bool>, update: Update, k: nat)
    requires k <= |stops|
    requires forall b: Buffer, j: nat :: update(b, j).Completed?
    ensures Loop(buf, stops, update, k).exit != ErrorCaught
    decreases |stops| - k
  {
    if k < |stops| && !stops[k] {
      NoRaiseMeansStopOnly(update(buf, k).buf, stops, update, k + 1);
    }
  }

  /** Conversely, the first update that raises ends the loop right there,
      whatever the rest of the stop observations say. */
  lemma RaiseEndsRun(buf: Buffer, stops: seq<bool>, update: Update)
    requires |stops| > 0 && !stops[0] && update(buf, 0).Raised?
    ensures RunGeneric(buf, stops, update).exit == ErrorCaught
    ensures RunGeneric(buf, stops, update).frames == 1
  {
  }

  /** A stop flag already set at the first poll renders nothing and leaves
      the strip dark. */
  lemma StopAtOnce(buf: Buffer, stops: seq<bool>, update: Update)
    requires |stops| > 0 && stops[0]
    ensures RunGeneric(buf, stops, update) == Run(StopObserved, 0, [Shown(Blank(|buf|))], Blank(|buf|))
  {
  }
}

=== FILE: legacy.dfy ===
/** The older effects of the top-level animations module, which run their
    own loop instead of the generic one: a rainbow that renders at most one
    frame per start position, and a blink that runs until stopped. Both
    black out the strip in a `finally` block. */
module Legacy {
  import opened Pixels
  import opened Engine
  import opened Rainbow

  /** `run_rainbow_animation` of the older module, from start position `s`
      on; `stops[s]` is what the poll before start position `s` observes. */
  function RainbowLoop(buf: Buffer, stops: seq<bool>, s: nat): (r: Run)
    ensures |r.final| == |buf|
    ensures r.exit != ErrorCaught
    ensures s + r.frames <= |buf| || r.frames == 0
    ensures |r.log| >= r.frames
    ensures forall j :: 0 <= j < r.frames ==>
      |buf| > 0 && r.log[j] == Shown(Frame(LegacyRunColors, |buf|, s + j))
    ensures r.frames > 0 ==> s + r.frames <= |stops|
    ensures forall j :: s <= j < s + r.frames && j < |stops| ==> !stops[j]
    ensures r.exit == Finished ==> s + r.frames >= |buf|
    ensures r.exit == StopObserved ==> s + r.frames < |stops| && stops[s + r.frames]
    ensures r.exit == StillRunning ==> s + r.frames >= |stops|
    ensures r.exit != StillRunning ==> IsDark(r.final) && |r.log| == r.frames + 1 && r.log[r.frames] == Shown(r.final)
    decreases |buf| - s
  {
    if s >= |buf| then
      Run(Finished, 0, [Shown(Blank(|buf|))], Blank(|buf|))
    else if s >= |stops| then
      Run(StillRunning, 0, [], buf)
    else if stops[s] then
      Run(StopObserved, 0, [Shown(Blank(|buf|))], Blank(|buf|))
    else
      var f := Frame(LegacyRunColors, |buf|, s);
      var rest := RainbowLoop(f, stops, s + 1);
      Run(rest.exit, rest.frames + 1, [Shown(f)] + rest.log, rest.final)
  }

  /** The older rainbow renders at most one frame per pixel, never a channel
      above 5, and ends dark unless the observations run out first. */
  lemma LegacyRainbowRun(buf: Buffer, stops: seq<bool>)
    ensures var r := RainbowLoop(buf, stops, 0);
      r.frames <= |buf|
      && (forall j, i :: 0 <= j < r.frames && 0 <= i < |buf| ==>
            r.log[j].buf[i].r <= 5 && r.log[j].buf[i].g <= 5 && r.log[j].buf[i].b <= 5)
      && (r.exit != StillRunning ==> IsDark(r.final))
  {
    var r := RainbowLoop(buf, stops, 0);
    forall j, i | 0 <= j < r.frames && 0 <= i < |buf|
      ensures r.log[j].buf[i].r <= 5 && r.log[j].buf[i].g <= 5 && r.log[j].buf[i].b <= 5
    {
      assert r.log[j] == Shown(Frame(LegacyRunColors, |buf|, j));
      LegacyFrameDim(|buf|, j, i);
    }
  }

  /** Every pixel of an older-rainbow frame stays at 5 or below. */
  lemma LegacyFrameDim(l: nat, s: int, i: int)
    requires l > 0 && 0 <= i < l
    ensures GoodPalette(LegacyRunColors)
    ensures var p := Frame(LegacyRunColors, l, s)[i]; p.r <= 5 && p.g <= 5 && p.b <= 5
  {
    LegacyRainbowDim(l, i - s);
  }

  /** `Color(255, 255, 255)`: white made of the three colour channels. */
  const RgbWhite := Pixel(255, 255, 255, 0)

  /** `run_blink_animation` of the older module, from poll `k` on: each
      round sets every pixel white and flushes, then black and flushes. */
  function BlinkLoop(buf: Buffer, stops: seq<bool>, k: nat): (r: Run)
    requires k <= |stops|
    ensures |r.final| == |buf|
    ensures r.exit == StopObserved || r.exit == StillRunning
    ensures k + r.frames <= |stops|
    ensures forall j :: k <= j < k + r.frames ==> !stops[j]
    ensures r.exit == StopObserved ==>
      k + r.frames < |stops| && stops[k + r.frames] && |r.log| == 2 * r.frames + 1
    ensures r.exit == StillRunning ==> k + r.frames == |stops| && |r.log| == 2 * r.frames
    ensures r.exit == StopObserved || r.frames > 0 ==> IsDark(r.final)
    decreases |stops| - k
  {
    if k == |stops| then
      Run(StillRunning, 0, [], buf)
    else if stops[k] then
      Run(StopObserved, 0, [Shown(Blank(|buf|))], Blank(|buf|))
    else
      var rest := BlinkLoop(Blank(|buf|), stops, k + 1);
      Run(rest.exit, rest.frames + 1,
          [Shown(Filled(|buf|, RgbWhite)), Shown(Blank(|buf|))] + rest.log, rest.final)
  }

  /** Every round of the blink shows the whole strip white and then dark;
      a stop ends it with one more dark flush. */
  lemma {:induction false} BlinkRounds(buf: Buffer, stops: seq<bool>, k: nat)
    requires k <= |stops|
    ensures var r := BlinkLoop(buf, stops, k);
      forall j :: 0 <= j < r.frames ==>
        r.log[2 * j] == Shown(Filled(|buf|, RgbWhite)) && r.log[2 * j + 1] == Shown(Blank(|buf|))
    decreases |stops| - k
  {
    if k < |stops| && !stops[k] {
      BlinkRounds(Blank(|buf|), stops, k + 1);
      var rest := BlinkLoop(Blank(|buf|), stops, k + 1);
      var log := BlinkLoop(buf, stops, k).log;
      assert log == [Shown(Filled(|buf|, RgbWhite)), Shown(Blank(|buf|))] + rest.log;
      forall j | 0 <= j < rest.frames + 1
        ensures log[2 * j] == Shown(Filled(|buf|, RgbWhite)) && log[2 * j + 1] == Shown(Blank(|buf|))
      {
        if j > 0 {
          var i := j - 1;
          assert log[2 * j] == rest.log[2 * i] && log[2 * j + 1] == rest.log[2 * i + 1];
        }
      }
    }
  }
}

=== FILE: motion.dfy ===
/** The moving effects: a head pixel runs along the strip and the pixels
    behind it are read back and decayed (Larson scanner, comet, white
    comet), or a block of white runs along and the whole strip is decayed
    after each flush (meteor). The stop flag is polled before each head
    position; `stopAt` is the number of the first poll that sees it set. */
module Motion {
  import opened Pixels
  import opened Arith
  import opened ColorUtils
  import opened StripWrites

  /** Pixel `k` lies in the tail of length `tail` of a head at `head`; the
      tail trails at lower indices (`behind == -1`) or higher (`behind == 1`). */
  predicate InTail(k: int, head: int, behind: int, tail: int) {
    if behind == -1 then head - tail <= k < head else head < k <= head + tail
  }

  /** Set the head, then for `j` in `1..tail` decay the pixel `j` steps
      behind it when the guard (`head - j >= 0` going forward, `head + j < l`
      going backward) holds; the guards keep every write on the strip. */
  method TailStep(buf: Buffer, head: int, c: Pixel, tail: int, behind: int, f: real, keepWhite: bool)
    returns (r: Buffer)
    requires AllValid(buf) && Valid(c) && 0 <= head < |buf| && 0.0 <= f <= 1.0
    requires behind == -1 || behind == 1
    ensures |r| == |buf| && AllValid(r) && r[head] == c
    ensures forall k :: 0 <= k < |buf| && k != head ==>
      r[k] == if InTail(k, head, behind, tail) then Decay(buf[k], f, keepWhite) else buf[k]
    ensures forall k :: 0 <= k < |buf| && k != head ==> Dimmer(r[k], buf[k])
  {
    r := SetPixel(buf, head, c);
    var j := 1;
    while j <= tail
      invariant 1 <= j && (j <= tail + 1 || j == 1)
      invariant |r| == |buf| && AllValid(r) && r[head] == c
      invariant forall k :: 0 <= k < |buf| && k != head ==>
        r[k] == if InTail(k, head, behind, j - 1) then Decay(buf[k], f, keepWhite) else buf[k]
    {
      if (behind == -1 && head - j >= 0) || (behind == 1 && head + j < |r|) {
        var idx := head + behind * j;
        r := SetPixel(r, idx, Decay(r[idx], f, keepWhite));
      }
      j := j + 1;
    }
  }

  /** The head position of frame `k` of a pass: left to right when
      `forward`, right to left otherwise. */
  function HeadAt(n: nat, k: int, forward: bool): int {
    if forward then k else n - 1 - k
  }

  /** One pass of the head over the strip: poll, tail step, flush, for each
      head position in turn. `stopped` tells whether a poll saw the flag. */
  method TailPass(buf: Buffer, c: Pixel, tail: int, f: real, keepWhite: bool, forward: bool, stopAt: nat)
    returns (r: Buffer, shown: seq<Buffer>, stopped: bool)
    requires AllValid(buf) && Valid(c) && 0.0 <= f <= 1.0
    ensures |r| == |buf| && AllValid(r)
    ensures |shown| == Min(stopAt, |buf|)
    ensures stopped <==> stopAt < |buf|
    ensures forall k :: 0 <= k < |shown| ==>
      |shown[k]| == |buf| && AllValid(shown[k]) && shown[k][HeadAt(|buf|, k, forward)] == c
    ensures r == if shown == [] then buf else shown[|shown| - 1]
  {
    r := buf;
    shown := [];
    var k := 0;
    while k < |buf|
      invariant 0 <= k <= |buf| && k <= stopAt && |shown| == k
      invariant |r| == |buf| && AllValid(r)
      invariant forall j :: 0 <= j < k ==>
        |shown[j]| == |buf| && AllValid(shown[j]) && shown[j][HeadAt(|buf|, j, forward)] == c
      invariant r == if shown == [] then buf else shown[|shown| - 1]
    {
      if k == stopAt {
        return r, shown, true;
      }
      var head := HeadAt(|buf|, k, forward);
      r := TailStep(r, head, c, tail, if forward then -1 else 1, f, keepWhite);
      shown := shown + [r];
      k := k + 1;
    }
    stopped := false;
  }

  /** Larson scanner: `Color(255, 0, 0)`. */
  const ScannerRed := Pixel(255, 0, 0, 0)

  /** One update of the Larson scanner: a forward pass, then, unless
      stopped, a backward pass, both with a colour-only tail decay. */
  method LarsonUpdate(buf: Buffer, c: Pixel, tail: int, f: real, stopAt: nat) returns (r: Buffer, shown: seq<Buffer>)
    requires AllValid(buf) && Valid(c) && 0.0 <= f <= 1.0
    ensures |r| == |buf| && AllValid(r)
    ensures |shown| == Min(stopAt, 2 * |buf|)
    ensures forall k :: 0 <= k < |shown| ==> |shown[k]| == |buf| && AllValid(shown[k])
    ensures forall k :: 0 <= k < |shown| && k < |buf| ==> shown[k][k] == c
    ensures forall k :: |buf| <= k < |shown| ==> shown[k][2 * |buf| - 1 - k] == c
  {
    var fwd, bwd: seq<Buffer>;
    var stopped;
    r, fwd, stopped := TailPass(buf, c, tail, f, false, true, stopAt);
    if stopped {
      return r, fwd;
    }
    r, bwd, stopped := TailPass(r, c, tail, f, false, false, stopAt - |buf|);
    shown := fwd + bwd;
    assert forall k :: |buf| <= k < |shown| ==> shown[k] == bwd[k - |buf|];
  }

  /** Comet: `Color(0, 0, 255)` with a colour-only tail decay. */
  const CometBlue := Pixel(0, 0, 255, 0)

  /** White comet: the head `setPixelColorRGB(i, 0, 0, 255, 255)`, with a
      tail decay on all four channels. */
  const WhiteCometHead := Pixel(0, 0, 255, 255)

  /** One update of the comet or the white comet: a single forward pass. */
  method CometUpdate(buf: Buffer, c: Pixel, tail: int, f: real, keepWhite: bool, stopAt: nat)
    returns (r: Buffer, shown: seq<Buffer>)
    requires AllValid(buf) && Valid(c) && 0.0 <= f <= 1.0
    ensures |r| == |buf| && AllValid(r)
    ensures |shown| == Min(stopAt, |buf|)
    ensures forall k :: 0 <= k < |shown| ==> |shown[k]| == |buf| && AllValid(shown[k]) && shown[k][k] == c
  {
    var stopped;
    r, shown, stopped := TailPass(buf, c, tail, f, keepWhite, true, stopAt);
  }

  /** The decay the white comet applies to its tail dims all four
      channels, white included, while the comet's decays leave white off. */
  lemma TailDecays(p: Pixel, f: real)
    requires Valid(p) && 0.0 <= f < 1.0
    ensures p.w > 0 ==> Decay(p, f, true).w < p.w
    ensures Decay(p, f, false).w == 0
  {
    DecayShrinks(p, f);
  }

  // ---------------------------------------------------------------------
  // meteor

  /** The meteor's head colour `Color(255, 255, 255)`. */
  const MeteorWhite := Pixel(255, 255, 255, 0)

  /** One meteor position: paint `size` pixels from `start` (those on the
      strip) white and flush, then decay every pixel's colour channels. */
  method MeteorStep(buf: Buffer, start: int, size: int, f: real) returns (shownNow: Buffer, r: Buffer)
    requires AllValid(buf) && 0 <= start && 0.0 <= f <= 1.0
    ensures shownNow == Painted(buf, start, start + size, MeteorWhite)
    ensures |r| == |buf| && AllValid(r)
    ensures forall i :: 0 <= i < |buf| ==> r[i] == DecayRgb(shownNow[i], f) && r[i].w == 0
  {
    shownNow := PaintWindow(buf, start, start + size, MeteorWhite);
    PaintedValid(buf, start, start + size, MeteorWhite);
    r := DecayPass(shownNow, f, false);
  }

  /** One update of the meteor: a meteor step at each position in turn,
      each preceded by a poll. */
  method MeteorUpdate(buf: Buffer, size: int, f: real, stopAt: nat) returns (r: Buffer, shown: seq<Buffer>)
    requires AllValid(buf) && 0.0 <= f <= 1.0
    ensures |r| == |buf| && AllValid(r)
    ensures |shown| == Min(stopAt, |buf|)
    ensures forall k :: 0 <= k < |shown| ==> |shown[k]| == |buf|
    ensures forall k, i :: 0 <= k < |shown| && 0 <= i < |shown[k]| && k <= i < k + size ==>
      shown[k][i] == MeteorWhite
    ensures |shown| > 0 ==> forall i :: 0 <= i < |buf| ==> r[i].w == 0
  {
    r := buf;
    shown := [];
    var k := 0;
    while k < |buf|
      invariant 0 <= k <= |buf| && k <= stopAt && |shown| == k
      invariant |r| == |buf| && AllValid(r)
      invariant forall j :: 0 <= j < k ==> |shown[j]| == |buf|
      invariant forall j, i :: 0 <= j < k && 0 <= i < |shown[j]| && j <= i < j + size ==>
        shown[j][i] == MeteorWhite
      invariant k > 0 ==> forall i :: 0 <= i < |buf| ==> r[i].w == 0
    {
      if k == stopAt {
        return;
      }
      var now;
      now, r := MeteorStep(r, k, size, f);
      shown := shown + [now];
      k := k + 1;
    }
  }
}

=== FILE: pixels.dfy ===
/** RGBW pixels, the packed 32-bit colour word of the strip driver, and the
    pixel buffer of a strip.

    The driver's `Color(red, green, blue, white)` packs a colour as
    `white << 24 | red << 16 | green << 8 | blue`; with every channel in
    [0, 255] the four bit fields are disjoint, so the bitwise or is the sum
    written in `Pack`. For a non-negative integer `c`, Python's `(c >> k) & 0xff`
    is `(c / 2^k) % 256`, which is how the channel extractors are written. */
module Pixels {
  import opened Arith

  /** One colour channel as the effects compute it (possibly out of range). */
  predicate IsChannel(x: int) {
    0 <= x <= 255
  }

  datatype Pixel = Pixel(r: int, g: int, b: int, w: int)

  predicate Valid(p: Pixel) {
    IsChannel(p.r) && IsChannel(p.g) && IsChannel(p.b) && IsChannel(p.w)
  }

  const Black := Pixel(0, 0, 0, 0)

  /** `p` is channel-wise at most `q` (a pixel that is no brighter). */
  predicate Dimmer(p: Pixel, q: Pixel) {
    p.r <= q.r && p.g <= q.g && p.b <= q.b && p.w <= q.w
  }

  // ---------------------------------------------------------------------
  // Packed colour words

  type Packed = nat

  /** `Color(red, green, blue, white)`: the word `w << 24 | r << 16 | g << 8 | b`.
      A valid pixel packs into 32 bits with blue in the low byte. */
  function Pack(p: Pixel): (c: int)
    ensures Valid(p) ==> 0 <= c < 0x1_0000_0000 && c % 0x100 == p.b
  {
    var c := p.w * 0x100_0000 + p.r * 0x1_0000 + p.g * 0x100 + p.b;
    if Valid(p) then
      DivModUnique(c, 0x100, p.w * 0x1_0000 + p.r * 0x100 + p.g, p.b);
      c
    else
      c
  }

  /** `(c >> 16) & 0xff` */
  function RedOf(c: Packed): int { (c / 0x1_0000) % 0x100 }

  /** `(c >> 8) & 0xff` */
  function GreenOf(c: Packed): int { (c / 0x100) % 0x100 }

  /** `c & 0xff` */
  function BlueOf(c: Packed): int { c % 0x100 }

  /** `(c >> 24) & 0xff` */
  function WhiteOf(c: Packed): int { (c / 0x100_0000) % 0x100 }

  /** The four channels of a packed word, as the effects read them back. */
  function Unpack(c: Packed): (p: Pixel)
    ensures Valid(p)
  {
    Pixel(RedOf(c), GreenOf(c), BlueOf(c), WhiteOf(c))
  }

  /** Packing a valid pixel gives a 32-bit word. */
  lemma PackRange(p: Pixel)
    requires Valid(p)
    ensures 0 <= Pack(p) < 0x1_0000_0000
  {
  }

  /** Channel extraction recovers every channel of a valid packed colour. */
  lemma {:induction false} UnpackPack(p: Pixel)
    requires Valid(p)
    ensures Unpack(Pack(p)) == p
  {
    var c := Pack(p);
    var hiG := p.w * 0x100 + p.r;
    var hiB := hiG * 0x100 + p.g;
    DivModUnique(c, 0x100, hiB, p.b);
    DivModUnique(hiB, 0x100, hiG, p.g);
    DivModUnique(c, 0x1_0000, hiG, p.g * 0x100 + p.b);
    DivModUnique(hiG, 0x100, p.w, p.r);
    DivModUnique(c, 0x100_0000, p.w, p.r * 0x1_0000 + p.g * 0x100 + p.b);
    DivModUnique(p.w, 0x100, 0, p.w);
  }

  /** Conversely, every 32-bit word is the packing of its four channels. */
  lemma {:induction false} PackUnpack(c: Packed)
    requires c < 0x1_0000_0000
    ensures Pack(Unpack(c)) == c
  {
    var b, c1 := c % 0x100, c / 0x100;
    var g, c2 := c1 % 0x100, c1 / 0x100;
    var r, w := c2 % 0x100, c2 / 0x100;
    assert c == c1 * 0x100 + b;
    assert c1 == c2 * 0x100 + g;
    assert c2 == w * 0x100 + r;
    DivModUnique(c, 0x1_0000, c2, g * 0x100 + b);
    DivModUnique(c, 0x100_0000, w, r * 0x1_0000 + g * 0x100 + b);
    assert w < 0x100;
    DivModUnique(w, 0x100, 0, w);
  }

  // ---------------------------------------------------------------------
  // The strip buffer

  type Buffer = seq<Pixel>

  predicate AllValid(buf: Buffer) {
    forall i :: 0 <= i < |buf| ==> Valid(buf[i])
  }

  /** Every pixel of the buffer is off: the blackout state. */
  predicate IsDark(buf: Buffer) {
    forall i :: 0 <= i < |buf| ==> buf[i] == Black
  }

  /** A buffer of `n` pixels all showing `p`. */
  function Filled(n: nat, p: Pixel): (buf: Buffer)
    ensures |buf| == n
  {
    seq(n, _ => p)
  }

  function Blank(n: nat): Buffer {
    Filled(n, Black)
  }

  /** `setPixelColor(i, …)`: an index outside the strip is a contract
      violation of the driver, so every caller must prove `i` in range. */
  function SetPixel(buf: Buffer, i: int, p: Pixel): (r: Buffer)
    requires 0 <= i < |buf|
    ensures |r| == |buf| && r[i] == p
    ensures forall k :: 0 <= k < |buf| && k != i ==> r[k] == buf[k]
  {
    buf[i := p]
  }

  /** `set_all_pixels` / `set_all_pixels_rgbw`: one write per index
      0 .. numPixels-1, in order. */
  method SetAllPixels(buf: Buffer, p: Pixel) returns (r: Buffer)
    ensures |r| == |buf|
    ensures forall i :: 0 <= i < |r| ==> r[i] == p
  {
    r := buf;
    var i := 0;
    while i < |buf|
      invariant 0 <= i <= |buf| && |r| == |buf|
      invariant forall k :: 0 <= k < i ==> r[k] == p
    {
      r := SetPixel(r, i, p);
      i := i + 1;
    }
  }

  /** `clear_strip`: the whole strip set to black. */
  method ClearStrip(buf: Buffer) returns (r: Buffer)
    ensures |r| == |buf| && IsDark(r)
  {
    r := SetAllPixels(buf, Black);
  }

  lemma BlankIsDark(n: nat)
    ensures IsDark(Blank(n)) && AllValid(Blank(n))
  {
  }
}

=== FILE: rainbow.dfy ===
/** The block-interpolated rainbow: the strip is cut into `lc = |palette|-1`
    blocks of `bl = l / lc` pixels, and pixel `i` at start position `s` mixes
    the two palette entries around its block in proportion to its place in
    the block. Python evaluates this in floating point; it is modelled with
    exact reals, and `int(...)` as truncation. */
module Rainbow {
  import opened Pixels
  import opened ColorUtils
  import opened Arith

  /** The palette of the current rainbow effect. */
  const RunColors: seq<Pixel> := [Pixel(255, 0, 0, 0), Pixel(0, 255, 0, 0), Pixel(0, 0, 255, 0), Pixel(255, 0, 0, 0)]

  /** The palette of the older rainbow in the top-level animations module. */
  const LegacyRunColors: seq<Pixel> := [Pixel(5, 0, 0, 0), Pixel(0, 5, 0, 0), Pixel(0, 0, 5, 0), Pixel(5, 0, 0, 0)]

  /** Every channel of every palette entry lies in [0, top]. */
  predicate PaletteWithin(pal: seq<Pixel>, top: int) {
    forall k :: 0 <= k < |pal| ==>
      0 <= pal[k].r <= top && 0 <= pal[k].g <= top && 0 <= pal[k].b <= top
  }

  predicate GoodPalette(pal: seq<Pixel>) {
    |pal| >= 2 && PaletteWithin(pal, 255)
  }

  /** `bl = l / lc` */
  function BlockLength(l: nat, lc: nat): real
    requires l > 0 && lc > 0
  {
    l as real / lc as real
  }

  /** Where offset `x = i - startPos` falls: its block index `block`, in
      [0, lc), and its position `relPos` inside the block, in [0, bl). */
  datatype Place = Place(block: int, relPos: real)

  /** `x // bl`: Python's floor division on floats. */
  function BlockQuot(l: nat, lc: nat, x: int): int
    requires l > 0 && lc > 0
  {
    (x as real / BlockLength(l, lc)).Floor
  }

  /** `x % bl = x - bl * (x // bl)`: Python's floor modulus on floats. */
  function BlockRem(l: nat, lc: nat, x: int): real
    requires l > 0 && lc > 0
  {
    x as real - BlockLength(l, lc) * BlockQuot(l, lc, x) as real
  }

  /** In exact arithmetic `x // bl` is the integer quotient of `x * lc` by
      `l`, and `x % bl` is the integer remainder scaled down by `lc`. */
  lemma BlockArith(l: nat, lc: nat, x: int)
    requires l > 0 && lc > 0
    ensures BlockQuot(l, lc, x) == (x * lc) / l
    ensures BlockRem(l, lc, x) == ((x * lc) % l) as real / lc as real
  {
    var m := x * lc;
    var q, r := m / l, m % l;
    assert x as real / BlockLength(l, lc) == m as real / l as real;
    assert m == q * l + r;
    assert m as real == q as real * l as real + r as real;
    assert m as real / l as real == q as real + r as real / l as real;
    assert 0.0 <= r as real / l as real < 1.0;
    assert x as real == (q as real * l as real + r as real) / lc as real;
  }

  /** `relPos = x % bl` and `block = int(x // bl % lc)`. */
  function Locate(l: nat, lc: nat, x: int): (pl: Place)
    requires l > 0 && lc > 0
    ensures 0 <= pl.block < lc
    ensures 0.0 <= pl.relPos < BlockLength(l, lc)
  {
    BlockArith(l, lc, x);
    var r := (x * lc) % l;
    assert r as real / lc as real < l as real / lc as real;
    Place(BlockQuot(l, lc, x) % lc, BlockRem(l, lc, x))
  }

  /** `factors = (relPos / bl, (bl - relPos) / bl)`: a convex pair. */
  function Factors(bl: real, relPos: real): (f: (real, real))
    requires bl > 0.0 && 0.0 <= relPos < bl
    ensures 0.0 <= f.0 < 1.0 && 0.0 < f.1 <= 1.0 && f.0 + f.1 == 1.0
  {
    (relPos / bl, (bl - relPos) / bl)
  }

  /** `int(next * factors[0] + cur * factors[1])` for one channel. */
  function MixChannel(next: int, cur: int, f0: real, f1: real): (v: int)
    requires 0 <= next && 0 <= cur
    requires 0.0 <= f0 <= 1.0 && f1 == 1.0 - f0
    ensures cur <= next ==> cur <= v <= next
    ensures next <= cur ==> next <= v <= cur
  {
    var a, b := cur as real, next as real;
    var x := b * f0 + a * f1;
    assert x == Lerp(a, b, f0);
    LerpBetween(a, b, f0);
    assert cur <= next ==> cur <= Trunc(x) <= next by {
      if cur <= next {
        assert a <= b;
        TruncBetween(x, cur, next);
      }
    }
    assert next <= cur ==> next <= Trunc(x) <= cur by {
      if next <= cur {
        assert b <= a;
        TruncBetween(x, next, cur);
      }
    }
    Trunc(x)
  }

  /** The colour the rainbow gives offset `x = i - startPos` on a strip of
      `l` pixels: `Color(int(red), int(green), int(blue))`, so white is 0. */
  function RainbowAt(pal: seq<Pixel>, l: nat, x: int): (p: Pixel)
    requires GoodPalette(pal) && l > 0
    ensures Valid(p) && p.w == 0
  {
    var lc := |pal| - 1;
    var bl := BlockLength(l, lc);
    var pl := Locate(l, lc, x);
    var f := Factors(bl, pl.relPos);
    var cur, next := pal[pl.block], pal[pl.block + 1];
    Pixel(MixChannel(next.r, cur.r, f.0, f.1), MixChannel(next.g, cur.g, f.0, f.1),
          MixChannel(next.b, cur.b, f.0, f.1), 0)
  }

  /** Each channel is a convex mix of palette values, so a palette bounded
      by `top` gives a pixel bounded by `top`. */
  lemma RainbowWithin(pal: seq<Pixel>, l: nat, x: int, top: int)
    requires GoodPalette(pal) && l > 0 && PaletteWithin(pal, top)
    ensures var p := RainbowAt(pal, l, x);
      0 <= p.r <= top && 0 <= p.g <= top && 0 <= p.b <= top
  {
    var pl := Locate(l, |pal| - 1, x);
    assert 0 <= pl.block && pl.block + 1 < |pal|;
  }

  /** The older palette keeps every channel of the older rainbow in [0, 5]. */
  lemma LegacyRainbowDim(l: nat, x: int)
    requires l > 0
    ensures GoodPalette(LegacyRunColors)
    ensures var p := RainbowAt(LegacyRunColors, l, x);
      p.r <= 5 && p.g <= 5 && p.b <= 5 && p.w == 0
  {
    RainbowWithin(LegacyRunColors, l, x, 5);
  }

  /** Since `bl * lc == l`, moving the offset by a whole strip length moves
      it by exactly `lc` blocks: same block index, same place in it. */
  lemma LocatePeriodic(l: nat, lc: nat, x: int)
    requires l > 0 && lc > 0
    ensures Locate(l, lc, x + l) == Locate(l, lc, x)
  {
    var m := x * lc;
    var q := m / l;
    BlockArith(l, lc, x);
    BlockArith(l, lc, x + l);
    assert (x + l) * lc == m + l * lc;
    ShiftByMultiple(m, l, lc);
    assert BlockQuot(l, lc, x + l) == q + lc;
    assert BlockRem(l, lc, x + l) == BlockRem(l, lc, x);
    ShiftByMultiple(q, lc, 1);
    assert (q + lc) % lc == q % lc;
  }

  /** A pixel's colour depends only on `(i - startPos) mod l`. */
  lemma RainbowPeriodic(pal: seq<Pixel>, l: nat, x: int)
    requires GoodPalette(pal) && l > 0
    ensures RainbowAt(pal, l, x + l) == RainbowAt(pal, l, x)
  {
    LocatePeriodic(l, |pal| - 1, x);
  }

  /** The frame for start position `s`: pixel `i` shows offset `i - s`. */
  function Frame(pal: seq<Pixel>, l: nat, s: int): (f: Buffer)
    requires GoodPalette(pal) && l > 0
    ensures |f| == l && AllValid(f)
    ensures forall i :: 0 <= i < l ==> f[i] == RainbowAt(pal, l, i - s) && f[i].w == 0
  {
    var f := seq(l, i => RainbowAt(pal, l, i - s));
    assert forall i :: 0 <= i < l ==> f[i] == RainbowAt(pal, l, i - s);
    f
  }

  /** Advancing the start position by one rotates the frame one pixel
      forward: pixel `i + 1` takes pixel `i`'s colour and pixel 0 takes the
      last pixel's colour. */
  lemma FrameRotates(pal: seq<Pixel>, l: nat, s: int)
    requires GoodPalette(pal) && l > 0
    ensures Frame(pal, l, s + 1) == [Frame(pal, l, s)[l - 1]] + Frame(pal, l, s)[..l - 1]
  {
    var f, g := Frame(pal, l, s), Frame(pal, l, s + 1);
    var h := [f[l - 1]] + f[..l - 1];
    RainbowPeriodic(pal, l, -s - 1);
    assert g[0] == h[0];
    forall i | 1 <= i < l
      ensures g[i] == h[i]
    {
      assert g[i] == RainbowAt(pal, l, i - (s + 1)) == f[i - 1];
    }
  }

  /** After a whole strip length of start positions the frame repeats. */
  lemma FramePeriodic(pal: seq<Pixel>, l: nat, s: int)
    requires GoodPalette(pal) && l > 0
    ensures Frame(pal, l, s + l) == Frame(pal, l, s)
  {
    forall i | 0 <= i < l
      ensures Frame(pal, l, s + l)[i] == Frame(pal, l, s)[i]
    {
      RainbowPeriodic(pal, l, i - (s + l));
      assert i - (s + l) + l == i - s;
    }
  }

  // ---------------------------------------------------------------------
  // The update of `run_rainbow_animation`

  /** As written: for each start position the stop flag is polled (it is
      seen set from poll `stopAt` on) and the whole frame is rendered into
      the buffer, but nothing is flushed inside the loop. The result is the
      buffer the generic loop then flushes. */
  function RainbowSweep(pal: seq<Pixel>, buf: Buffer, stopAt: nat, s: nat): (r: Buffer)
    requires GoodPalette(pal)
    ensures |r| == |buf|
    ensures s >= Min(stopAt, |buf|) ==> r == buf
    ensures s < Min(stopAt, |buf|) ==> r == Frame(pal, |buf|, Min(stopAt, |buf|) - 1)
    decreases |buf| - s
  {
    if s >= |buf| || s >= stopAt then buf
    else RainbowSweep(pal, Frame(pal, |buf|, s), stopAt, s + 1)
  }

  /** As written, an update that is not stopped always hands the generic loop
      the frame of the last start position, whatever the strip showed
      before: every flushed frame is the same and the rainbow stands still. */
  lemma {:induction false} RainbowSweepAsWritten(pal: seq<Pixel>, buf: Buffer, stopAt: nat, s: nat)
    requires GoodPalette(pal) && |buf| > 0 && s < |buf| <= stopAt
    ensures RainbowSweep(pal, buf, stopAt, s) == Frame(pal, |buf|, |buf| - 1)
    decreases |buf| - s
  {
    if s + 1 < |buf| {
      RainbowSweepAsWritten(pal, Frame(pal, |buf|, s), stopAt, s + 1);
    }
  }

  /** Corrected: the frame of every start position is flushed as soon as it
      is rendered, as the older rainbow does. Returns the flushed frames. */
  function RainbowSweepShown(pal: seq<Pixel>, l: nat, stopAt: nat, s: nat): (shown: seq<Buffer>)
    requires GoodPalette(pal)
    ensures |shown| == if s >= l || s >= stopAt then 0 else Min(stopAt, l) - s
    ensures forall j :: 0 <= j < |shown| ==> shown[j] == Frame(pal, l, s + j)
    decreases l - s
  {
    if s >= l || s >= stopAt then []
    else [Frame(pal, l, s)] + RainbowSweepShown(pal, l, stopAt, s + 1)
  }

  /** With the correction, consecutive flushed frames are rotations of each
      other by one pixel: the rainbow moves. */
  lemma RainbowSweepShownMoves(pal: seq<Pixel>, l: nat, stopAt: nat, j: nat)
    requires GoodPalette(pal)
    requires j + 1 < |RainbowSweepShown(pal, l, stopAt, 0)|
    ensures var shown := RainbowSweepShown(pal, l, stopAt, 0);
      shown[j + 1] == [shown[j][l - 1]] + shown[j][..l - 1]
  {
    FrameRotates(pal, l, j);
  }

  /** The discrepancy on a three-pixel strip (one pixel per block): the
      corrected sweep flushes red-green-blue, then blue-red-green, then
      green-blue-red, while the sweep as written hands over green-blue-red
      on every update. */
  lemma RainbowThreePixels()
    ensures GoodPalette(RunColors)
    ensures Frame(RunColors, 3, 0) == [Pixel(255, 0, 0, 0), Pixel(0, 255, 0, 0), Pixel(0, 0, 255, 0)]
    ensures Frame(RunColors, 3, 1) != Frame(RunColors, 3, 0)
    ensures RainbowSweep(RunColors, Blank(3), 3, 0) == Frame(RunColors, 3, 2)
  {
    assert BlockLength(3, 3) == 1.0;
    var f := Frame(RunColors, 3, 0);
    assert Locate(3, 3, 0) == Place(0, 0.0);
    assert Locate(3, 3, 1) == Place(1, 0.0);
    assert Locate(3, 3, 2) == Place(2, 0.0);
    assert f[0] == Pixel(255, 0, 0, 0);
    assert f[1] == Pixel(0, 255, 0, 0);
    assert f[2] == Pixel(0, 0, 255, 0);
    FrameRotates(RunColors, 3, 0);
    RainbowSweepAsWritten(RunColors, Blank(3), 3, 0);
  }

  // ---------------------------------------------------------------------
  // run_rainbow_with_white_flash_animation

  const FlashWhite := Pixel(0, 0, 0, 255)

  /** The rainbow frame for step `j`: pixel `i` shows the wheel at
      `(i + j) & 255`, which for non-negative numbers is `(i + j) % 256`. */
  function WheelFrame(n: nat, j: nat): (f: Buffer)
    ensures |f| == n
    ensures forall i :: 0 <= i < n ==> f[i] == WheelRgbw((i + j) % 256)
    ensures forall i :: 0 <= i < n ==> f[i].w == 0 && f[i].r + f[i].g + f[i].b == 255 && Valid(f[i])
  {
    var f := seq(n, i => WheelRgbw((i + j) % 256));
    assert forall i :: 0 <= i < n ==> f[i] == WheelRgbw((i + j) % 256);
    f
  }

  /** What step `j` flushes: the rainbow frame, and on every tenth step a
      white flash and a blackout, each written by `set_all_pixels_rgbw`
      (which flushes) and flushed once more by the caller. */
  function FlashStepShows(n: nat, j: nat): (shown: seq<Buffer>)
    ensures |shown| == if j % 10 == 0 then 5 else 1
    ensures shown[0] == WheelFrame(n, j)
    ensures j % 10 == 0 ==>
      shown[1] == shown[2] == Filled(n, FlashWhite) && shown[3] == shown[4] == Blank(n)
    ensures forall k :: 0 <= k < |shown| ==> |shown[k]| == n && AllValid(shown[k])
  {
    [WheelFrame(n, j)]
    + (if j % 10 == 0 then [Filled(n, FlashWhite), Filled(n, FlashWhite), Blank(n), Blank(n)] else [])
  }

  /** A flushed buffer is a white flash when some pixel has full white. */
  predicate IsFlash(f: Buffer) {
    exists i :: 0 <= i < |f| && f[i].w == 255
  }

  /** A step flashes white exactly when `j % 10 == 0`. */
  lemma FlashExactlyEveryTenth(n: nat, j: nat)
    requires n > 0
    ensures (exists k :: 0 <= k < |FlashStepShows(n, j)| && IsFlash(FlashStepShows(n, j)[k])) <==> j % 10 == 0
  {
    var shows := FlashStepShows(n, j);
    if j % 10 == 0 {
      var f: Buffer := shows[1];
      assert f[0].w == 255;
      assert IsFlash(shows[1]);
    } else {
      assert shows == [WheelFrame(n, j)];
      assert !IsFlash(WheelFrame(n, j));
    }
  }

  /** The update: steps `j = 0 .. 255`, polling the stop flag before each
      (seen set from poll `stopAt` on). Returns everything flushed. */
  function FlashSweep(n: nat, stopAt: nat, j: nat): (shown: seq<Buffer>)
    requires j <= 256
    ensures shown == [] <==> j == 256 || j >= stopAt
    ensures shown != [] ==> shown[0] == WheelFrame(n, j)
    ensures forall k :: 0 <= k < |shown| ==> |shown[k]| == n && AllValid(shown[k])
    decreases 256 - j
  {
    if j == 256 || j >= stopAt then []
    else FlashStepShows(n, j) + FlashSweep(n, stopAt, j + 1)
  }

  /** The number of white flashes among the steps `j .. 255` that run. */
  function FlashCount(stopAt: nat, j: nat): nat
    requires j <= 256
    decreases 256 - j
  {
    if j == 256 || j >= stopAt then 0
    else (if j % 10 == 0 then 1 else 0) + FlashCount(stopAt, j + 1)
  }

  /** A sweep flushes one rainbow frame per step plus four buffers per
      flash; an unstopped sweep flashes 26 times (j = 0, 10, …, 250). */
  lemma {:induction false} FlashSweepLength(n: nat, stopAt: nat, j: nat)
    requires j <= 256
    ensures |FlashSweep(n, stopAt, j)| ==
      (if j >= stopAt then 0 else Min(stopAt, 256) - j) + 4 * FlashCount(stopAt, j)
    decreases 256 - j
  {
    if j < 256 && j < stopAt {
      FlashSweepLength(n, stopAt, j + 1);
    }
  }

  lemma {:induction false} FlashCountFull(j: nat)
    requires j <= 256
    ensures FlashCount(256, j) == 26 - (j + 9) / 10
    decreases 256 - j
  {
    if j < 256 {
      FlashCountFull(j + 1);
    }
  }

  lemma FullSweepFlashes()
    ensures FlashCount(256, 0) == 26
  {
    FlashCountFull(0);
  }
}

=== FILE: ramps.dfy ===
/** Effects that step the whole strip through a list of colours: the soft
    white pulse and the warm white fade (white channel ramps over a fixed
    colour) and the fade effect (brightness ramps of pure colours). Every
    step polls the stop flag first and returns early if it is set; otherwise
    it writes every pixel and flushes (the whole-strip write flushes), then
    flushes once more. */
module Ramps {
  import opened Pixels
  import opened Arith
  import opened ColorUtils
  import opened Ranges

  /** What one update of a stepping effect flushes, when the first poll to
      see the stop flag set is poll number `stopAt` (a value of `|steps|`
      or more means the flag stays clear for the whole update): two flushes
      of the uniformly coloured strip per step taken. */
  function Steps(n: nat, steps: seq<Pixel>, stopAt: nat): (shown: seq<Buffer>)
    ensures |shown| == 2 * Min(stopAt, |steps|)
    ensures forall j :: 0 <= j < |shown| ==> shown[j] == Filled(n, steps[j / 2])
  {
    if steps == [] || stopAt == 0 then
      []
    else
      var f := Filled(n, steps[0]);
      var rest := Steps(n, steps[1..], stopAt - 1);
      assert forall j :: 2 <= j < 2 + |rest| ==> steps[j / 2] == steps[1..][(j - 2) / 2];
      [f, f] + rest
  }

  /** A stop observed at the first poll leaves the strip untouched, and
      one that is never observed shows every step. */
  lemma StepsStop(n: nat, steps: seq<Pixel>, stopAt: nat)
    ensures stopAt == 0 ==> Steps(n, steps, stopAt) == []
    ensures stopAt >= |steps| ==> |Steps(n, steps, stopAt)| == 2 * |steps|
    ensures 0 < stopAt <= |steps| ==>
      Steps(n, steps, stopAt)[2 * stopAt - 1] == Filled(n, steps[stopAt - 1])
  {
  }

  /** The steps of a fixed colour with the given white values. */
  function WithWhite(red: int, green: int, blue: int, whites: seq<int>): (s: seq<Pixel>)
    ensures |s| == |whites|
    ensures forall k :: 0 <= k < |s| ==> s[k] == Pixel(red, green, blue, whites[k])
  {
    seq(|whites|, k requires 0 <= k < |whites| => Pixel(red, green, blue, whites[k]))
  }

  // ---------------------------------------------------------------------
  // soft white pulse

  /** The steps of one update of the soft white pulse: white rises from 0
      in steps of 5 up to `maxWhite`, then falls from `maxWhite` in steps
      of 5 while it is not negative. */
  function PulseSteps(red: int, green: int, blue: int, maxWhite: int): (s: seq<Pixel>)
    ensures |s| == |PyRange(0, maxWhite + 1, 5)| + |PyRange(maxWhite, -1, -5)|
    ensures forall k :: 0 <= k < |s| ==> s[k].r == red && s[k].g == green && s[k].b == blue
  {
    WithWhite(red, green, blue, PyRange(0, maxWhite + 1, 5))
    + WithWhite(red, green, blue, PyRange(maxWhite, -1, -5))
  }

  /** Every white written lies in [0, maxWhite] next to the unchanged
      colour; the rise starts at 0 and the fall starts at `maxWhite`. */
  lemma {:induction false} PulseWhites(red: int, green: int, blue: int, maxWhite: int)
    requires maxWhite >= 0
    ensures var s, up := PulseSteps(red, green, blue, maxWhite), |PyRange(0, maxWhite + 1, 5)|;
      up == maxWhite / 5 + 1 && |s| == 2 * up
      && s[0].w == 0 && s[up].w == maxWhite && s[|s| - 1].w == maxWhite % 5
      && (forall k :: 0 <= k < |s| ==>
            s[k].r == red && s[k].g == green && s[k].b == blue && 0 <= s[k].w <= maxWhite)
      && (forall k :: 0 < k < up ==> s[k].w == s[k - 1].w + 5)
      && (forall k :: up < k < |s| ==> s[k].w == s[k - 1].w - 5)
  {
    var upR, downR := PyRange(0, maxWhite + 1, 5), PyRange(maxWhite, -1, -5);
    UpRampBounds(maxWhite);
    DownRampBounds(maxWhite);
    assert |upR| == maxWhite / 5 + 1 by {
      assert (|upR| - 1) * 5 <= maxWhite < |upR| * 5;
    }
    assert |downR| == |upR| by {
      assert maxWhite - (|downR| - 1) * 5 >= 0 && maxWhite - |downR| * 5 < 0;
    }
  }

  /** With colour channels and a ceiling in [0, 255], every step is a
      valid pixel. */
  lemma PulseValid(red: int, green: int, blue: int, maxWhite: int)
    requires IsChannel(red) && IsChannel(green) && IsChannel(blue) && IsChannel(maxWhite)
    ensures forall p <- PulseSteps(red, green, blue, maxWhite) :: Valid(p)
  {
    PulseWhites(red, green, blue, maxWhite);
  }

  // ---------------------------------------------------------------------
  // ramps over a palette, 52 steps up and 52 steps down

  /** `range(0, 256, 5)`: 0, 5, ..., 255. */
  lemma {:induction false} RiseSteps()
    ensures var r := PyRange(0, 256, 5);
      |r| == 52 && forall k :: 0 <= k < 52 ==> r[k] == 5 * k
  {
    var r := PyRange(0, 256, 5);
    assert Before(0, 256, 5);
    assert |r| > 0;
    assert Before(r[|r| - 1], 256, 5);
  }

  /** `range(255, -1, -5)`: 255, 250, ..., 0. */
  lemma {:induction false} FallSteps()
    ensures var r := PyRange(255, -1, -5);
      |r| == 52 && forall k :: 0 <= k < 52 ==> r[k] == 255 - 5 * k
  {
    var r := PyRange(255, -1, -5);
    assert Before(255, -1, -5);
    assert |r| > 0;
    assert Before(r[|r| - 1], -1, -5);
  }

  const RampLength := 104

  /** One ramp per palette colour, in palette order. */
  function Cycle(colors: seq<Pixel>, ramp: Pixel -> seq<Pixel>): (s: seq<Pixel>)
    requires forall c :: |ramp(c)| == RampLength
    ensures |s| == RampLength * |colors|
  {
    if colors == [] then [] else ramp(colors[0]) + Cycle(colors[1..], ramp)
  }

  /** Step `k` of colour number `i` sits at position `104 * i + k`. */
  lemma {:induction false} CycleIndex(colors: seq<Pixel>, ramp: Pixel -> seq<Pixel>, i: nat, k: nat)
    requires forall c :: |ramp(c)| == RampLength
    requires i < |colors| && k < RampLength
    ensures Cycle(colors, ramp)[RampLength * i + k] == ramp(colors[i])[k]
  {
    if i > 0 {
      CycleIndex(colors[1..], ramp, i - 1, k);
      assert RampLength * i + k == RampLength + (RampLength * (i - 1) + k);
    }
  }

  // ---------------------------------------------------------------------
  // warm white fade

  /** Red, green, blue and yellow, each with white off. */
  const WarmColors := [Pixel(255, 0, 0, 0), Pixel(0, 255, 0, 0), Pixel(0, 0, 255, 0), Pixel(255, 255, 0, 0)]

  /** For one colour: white rises 0..255 and falls 255..0 in steps of 5. */
  function WhiteRamp(c: Pixel): (s: seq<Pixel>)
    ensures |s| == RampLength
  {
    RiseSteps();
    FallSteps();
    WithWhite(c.r, c.g, c.b, PyRange(0, 256, 5)) + WithWhite(c.r, c.g, c.b, PyRange(255, -1, -5))
  }

  /** The warm white fade: the white ramp over each warm colour in turn. */
  function WarmFadeSteps(): (s: seq<Pixel>)
    ensures |s| == 4 * RampLength
    ensures forall k :: 0 <= k < |s| ==> s[k] == WhiteRamp(WarmColors[k / RampLength])[k % RampLength]
  {
    var s := Cycle(WarmColors, WhiteRamp);
    forall k | 0 <= k < |s|
      ensures s[k] == WhiteRamp(WarmColors[k / RampLength])[k % RampLength]
    {
      CycleIndex(WarmColors, WhiteRamp, k / RampLength, k % RampLength);
    }
    s
  }

  /** Over each palette colour the white channel rises from 0 to 255 and
      falls back to 0; the colour channels stay those of the palette. */
  lemma WarmFadeShape(i: nat, k: nat)
    requires i < 4 && k < 52
    ensures var s, c := WarmFadeSteps(), WarmColors[i];
      |s| == 416
      && s[104 * i + k] == Pixel(c.r, c.g, c.b, 5 * k)
      && s[104 * i + 52 + k] == Pixel(c.r, c.g, c.b, 255 - 5 * k)
  {
    RiseSteps();
    FallSteps();
    CycleIndex(WarmColors, WhiteRamp, i, k);
    CycleIndex(WarmColors, WhiteRamp, i, 52 + k);
  }

  /** Every step of the warm white fade is a valid pixel, its white peaks at
      255 and each colour's ramp ends with white off. */
  lemma WarmFadeEnds(i: nat)
    requires i < 4
    ensures var s := WarmFadeSteps();
      s[104 * i + 51].w == 255 && s[104 * i + 103].w == 0 && s[104 * i].w == 0
      && Valid(s[104 * i + 51])
  {
    WarmFadeShape(i, 0);
    WarmFadeShape(i, 51);
  }

  // ---------------------------------------------------------------------
  // fade (motion effects)

  /** Red, green and blue. */
  const FadeColors := [Pixel(255, 0, 0, 0), Pixel(0, 255, 0, 0), Pixel(0, 0, 255, 0)]

  /** `Color(c0 * b // 255, c1 * b // 255, c2 * b // 255)`. */
  function Faded(c: Pixel, brightness: int): (p: Pixel)
    requires Valid(c) && IsChannel(brightness)
    ensures Valid(p) && p.w == 0
    ensures p.r <= c.r && p.g <= c.g && p.b <= c.b
  {
    Pixel(FadeChannel(c.r, brightness), FadeChannel(c.g, brightness), FadeChannel(c.b, brightness), 0)
  }

  /** A brighter step is never darker in any channel. */
  lemma FadedMono(c: Pixel, b1: int, b2: int)
    requires Valid(c) && IsChannel(b1) && IsChannel(b2) && b1 <= b2
    ensures Dimmer(Faded(c, b1), Faded(c, b2))
  {
    FadeChannelMono(c.r, b1, b2);
    FadeChannelMono(c.g, b1, b2);
    FadeChannelMono(c.b, b1, b2);
  }

  /** For one colour: brightness rises 0..255 and falls 255..0 in steps of 5.
      The effect only ramps valid colours; the black given for an invalid
      one has no counterpart in the effect and only makes the ramp a total
      function that `Cycle` can take. */
  function BrightnessRamp(c: Pixel): (s: seq<Pixel>)
    ensures |s| == RampLength
    ensures Valid(c) ==> forall k :: 0 <= k < |s| ==> Valid(s[k]) && Dimmer(s[k], c) && s[k].w == 0
  {
    RiseSteps();
    FallSteps();
    var up, down := PyRange(0, 256, 5), PyRange(255, -1, -5);
    seq(52, k requires 0 <= k < 52 => if Valid(c) then Faded(c, up[k]) else Black)
    + seq(52, k requires 0 <= k < 52 => if Valid(c) then Faded(c, down[k]) else Black)
  }

  /** The fade effect: the brightness ramp of each fade colour in turn. */
  function FadeSteps(): (s: seq<Pixel>)
    ensures |s| == 3 * RampLength
    ensures forall k :: 0 <= k < |s| ==> s[k] == BrightnessRamp(FadeColors[k / RampLength])[k % RampLength]
  {
    var s := Cycle(FadeColors, BrightnessRamp);
    forall k | 0 <= k < |s|
      ensures s[k] == BrightnessRamp(FadeColors[k / RampLength])[k % RampLength]
    {
      CycleIndex(FadeColors, BrightnessRamp, k / RampLength, k % RampLength);
    }
    s
  }

  /** Step `k` of the rise has brightness `5 * k`, step `k` of the fall
      has brightness `255 - 5 * k`. */
  lemma BrightnessRampIndex(c: Pixel, k: nat)
    requires Valid(c) && k < 52
    ensures BrightnessRamp(c)[k] == Faded(c, 5 * k)
    ensures BrightnessRamp(c)[52 + k] == Faded(c, 255 - 5 * k)
  {
    RiseSteps();
    FallSteps();
    var up, down := PyRange(0, 256, 5), PyRange(255, -1, -5);
    var rise := seq(52, j requires 0 <= j < 52 => if Valid(c) then Faded(c, up[j]) else Black);
    var fall := seq(52, j requires 0 <= j < 52 => if Valid(c) then Faded(c, down[j]) else Black);
    assert BrightnessRamp(c) == rise + fall;
    assert rise[k] == Faded(c, 5 * k);
    assert fall[k] == Faded(c, 255 - 5 * k);
  }

  /** For one colour, the ramp brightens from black to the full colour,
      never darkening on the way, then darkens back to black, never
      brightening on the way. */
  lemma BrightnessRampShape(c: Pixel, k: nat)
    requires Valid(c) && c.w == 0 && k < 51
    ensures var s := BrightnessRamp(c);
      s[0] == Black && s[51] == c && s[52] == c && s[103] == Black
      && Dimmer(s[k], s[k + 1]) && Dimmer(s[52 + k + 1], s[52 + k])
  {
    BrightnessRampIndex(c, 0);
    BrightnessRampIndex(c, 51);
    BrightnessRampIndex(c, k);
    BrightnessRampIndex(c, k + 1);
    FadedMono(c, 5 * k, 5 * (k + 1));
    FadedMono(c, 255 - 5 * (k + 1), 255 - 5 * k);
  }

  /** The fade runs the brightness ramp of red, green and blue in turn. */
  lemma FadeShape(i: nat, k: nat)
    requires i < 3 && k < 104
    ensures |FadeSteps()| == 312
    ensures FadeSteps()[104 * i + k] == BrightnessRamp(FadeColors[i])[k]
  {
    CycleIndex(FadeColors, BrightnessRamp, i, k);
  }
}

=== FILE: random_effects.dfy ===
/** The effects driven by random draws. Every draw is a parameter that
    satisfies the range the draw guarantees (`randint(a, b)` lies in
    [a, b], `random()` in [0, 1)); a `randint` whose range is empty raises,
    which is modelled as a raised outcome. */
module RandomEffects {
  import opened Pixels
  import opened ColorUtils
  import opened Ranges
  import opened Arith
  import opened Engine
  import opened StripWrites

  // ---------------------------------------------------------------------
  // firework

  /** For a colour without white, shifting the packed word right by 16 with
      no mask still gives exactly the red channel. */
  lemma UnmaskedRed(c: Pixel)
    requires Valid(c) && c.w == 0
    ensures Pack(c) / 0x1_0000 == c.r
  {
    DivModUnique(Pack(c), 0x1_0000, c.r, c.g * 0x100 + c.b);
  }

  /** The faded burst colour `Color((color >> 16) * b // 255,
      ((color >> 8) & 0xff) * b // 255, (color & 0xff) * b // 255)`. */
  function FireworkShade(c: Pixel, brightness: int): (p: Pixel)
    requires Valid(c) && c.w == 0 && IsChannel(brightness)
    ensures p == Pixel(FadeChannel(c.r, brightness), FadeChannel(c.g, brightness), FadeChannel(c.b, brightness), 0)
  {
    PackRange(c);
    UnpackPack(c);
    UnmaskedRed(c);
    var word: Packed := Pack(c);
    Pixel((word / 0x1_0000) * brightness / 255, GreenOf(word) * brightness / 255,
          BlueOf(word) * brightness / 255, 0)
  }

  /** Each step of the burst is no brighter than the one before, and the
      first faded step is the burst colour itself. */
  lemma FireworkDims(c: Pixel, b1: int, b2: int)
    requires Valid(c) && c.w == 0 && IsChannel(b1) && IsChannel(b2) && b1 <= b2
    ensures Dimmer(FireworkShade(c, b1), FireworkShade(c, b2))
    ensures FireworkShade(c, 255) == c
  {
    FadeChannelMono(c.r, b1, b2);
    FadeChannelMono(c.g, b1, b2);
    FadeChannelMono(c.b, b1, b2);
  }

  /** `range(255, 0, -5)`: 255, 250, ..., 5. */
  lemma {:induction false} FireworkSteps()
    ensures var r := PyRange(255, 0, -5);
      |r| == 51 && forall k :: 0 <= k < 51 ==> r[k] == 255 - 5 * k
  {
    var r := PyRange(255, 0, -5);
    assert Before(255, 0, -5);
    assert |r| > 0;
    assert Before(r[|r| - 1], 0, -5);
  }

  /** The brightness of flush `k` of a firework: the burst colour itself
      for `k == 0`, then 255, 250, ..., 5. */
  function FlushBrightness(k: nat): int {
    if k == 0 then 255 else 260 - 5 * k
  }

  /** Flush `k` of a firework: the seven pixels around `pos` (those on the
      strip) painted with the burst colour for `k == 0`, and with the burst
      colour faded to brightness `260 - 5 * k` after that. */
  function FireworkFlush(buf: Buffer, pos: int, c: Pixel, k: nat): (f: Buffer)
    requires Valid(c) && c.w == 0 && k < 52
    ensures |f| == |buf|
    ensures forall i :: 0 <= i < |buf| && !(pos - 3 <= i <= pos + 3) ==> f[i] == buf[i]
    ensures forall i :: 0 <= i < |buf| && pos - 3 <= i <= pos + 3 ==>
      Valid(f[i]) && Dimmer(f[i], c) && f[i].w == 0 && (k == 0 ==> f[i] == c)
  {
    Painted(buf, pos - 3, pos + 4, if k == 0 then c else FireworkShade(c, FlushBrightness(k)))
  }

  /** Everything one firework flushes, in order. */
  function FireworkFlushes(buf: Buffer, pos: int, c: Pixel): (shown: seq<Buffer>)
    requires Valid(c) && c.w == 0
    ensures |shown| == 52
    ensures forall k :: 0 <= k < 52 ==> shown[k] == FireworkFlush(buf, pos, c, k)
  {
    seq(52, k requires 0 <= k < 52 => FireworkFlush(buf, pos, c, k))
  }

  /** One firework update: the drawn position and colour are `pos` and
      `c`; on an empty strip the draw of `pos` raises. The fade loop counts
      `brightness` down from 255 in steps of 5 while it is positive, which
      is `range(255, 0, -5)` (`FireworkSteps`). */
  method FireworkUpdate(buf: Buffer, pos: int, c: Pixel) returns (o: Outcome, shown: seq<Buffer>)
    requires |buf| > 0 ==> 0 <= pos < |buf|
    requires Valid(c) && c.w == 0
    ensures |o.buf| == |buf|
    ensures o.Raised? <==> |buf| == 0
    ensures |buf| == 0 ==> o.buf == buf && shown == []
    ensures |buf| > 0 ==> shown == FireworkFlushes(buf, pos, c) && o.buf == shown[51]
  {
    if |buf| == 0 {
      return Raised(buf), [];
    }
    var strip := PaintWindow(buf, pos - 3, pos + 4, c);
    shown := [strip];
    var brightness, k := 255, 0;
    while brightness > 0
      invariant 0 <= k <= 51 && brightness == 255 - 5 * k && |shown| == k + 1
      invariant forall j :: 0 <= j <= k ==> shown[j] == FireworkFlush(buf, pos, c, j)
      invariant strip == FireworkFlush(buf, pos, c, k)
    {
      FireworkNext(buf, pos, c, k);
      strip := PaintWindow(strip, pos - 3, pos + 4, FireworkShade(c, brightness));
      shown := shown + [strip];
      brightness, k := brightness - 5, k + 1;
    }
    o := Completed(strip);
  }

  /** Fade step `k` repaints flush `k` into flush `k + 1`. */
  lemma FireworkNext(buf: Buffer, pos: int, c: Pixel, k: nat)
    requires Valid(c) && c.w == 0 && k < 51
    ensures Painted(FireworkFlush(buf, pos, c, k), pos - 3, pos + 4, FireworkShade(c, 255 - 5 * k))
      == FireworkFlush(buf, pos, c, k + 1)
  {
    PaintedTwice(buf, pos - 3, pos + 4, if k == 0 then c else FireworkShade(c, FlushBrightness(k)), FireworkShade(c, 255 - 5 * k));
  }

  /** A firework touches only the seven pixels around its position, and
      every flush after the first is no brighter there than the one before. */
  lemma FireworkFades(buf: Buffer, pos: int, c: Pixel, k: int, i: int)
    requires Valid(c) && c.w == 0 && 0 <= i < |buf|
    requires 0 <= k < 52
    ensures var shown := FireworkFlushes(buf, pos, c);
      (k > 0 ==> Dimmer(shown[k][i], shown[k - 1][i]))
      && (!(pos - 3 <= i <= pos + 3) ==> shown[k][i] == buf[i])
      && (pos - 3 <= i <= pos + 3 && k > 0 ==> shown[k][i] == FireworkShade(c, 260 - 5 * k))
  {
    if k == 1 {
      FireworkDims(c, 255, 255);
    } else if k > 1 {
      FireworkDims(c, 260 - 5 * k, 260 - 5 * (k - 1));
    }
  }

  // ---------------------------------------------------------------------
  // random walk

  /** One step of the walker: move by the drawn -1 or +1 and wrap around
      the ends of the strip. */
  function WalkStep(pos: int, delta: int, n: int): (p: int)
    requires n > 0 && 0 <= pos < n && (delta == -1 || delta == 1)
    ensures 0 <= p < n
    ensures p == (pos + delta) % n
  {
    var q := pos + delta;
    if q < 0 then
      DivModUnique(q, n, -1, n - 1);
      n - 1
    else if q >= n then
      DivModUnique(q, n, 1, 0);
      0
    else
      DivModUnique(q, n, 0, q);
      q
  }

  /** The walker's update: step, then paint the new position with the
      drawn colour; the write is on the strip because the step wraps. */
  function WalkUpdate(buf: Buffer, pos: int, delta: int, c: Pixel): (r: (Buffer, int))
    requires |buf| > 0 && 0 <= pos < |buf| && (delta == -1 || delta == 1)
    ensures |r.0| == |buf| && 0 <= r.1 < |buf| && r.0[r.1] == c
    ensures forall i :: 0 <= i < |buf| && i != r.1 ==> r.0[i] == buf[i]
  {
    var p := WalkStep(pos, delta, |buf|);
    (SetPixel(buf, p, c), p)
  }

  function Sum(s: seq<int>): int {
    if s == [] then 0 else s[0] + Sum(s[1..])
  }

  /** The positions after each step of a walk of several steps. */
  function Walk(pos: int, deltas: seq<int>, n: int): (path: seq<int>)
    requires n > 0 && 0 <= pos < n
    requires forall k :: 0 <= k < |deltas| ==> deltas[k] == -1 || deltas[k] == 1
    ensures |path| == |deltas|
    ensures forall k :: 0 <= k < |path| ==> 0 <= path[k] < n
    decreases |deltas|
  {
    if deltas == [] then [] else
      var p := WalkStep(pos, deltas[0], n);
      [p] + Walk(p, deltas[1..], n)
  }

  /** However long the walk, the walker is where the sum of its steps puts
      it, modulo the strip length. */
  lemma {:induction false} WalkIsSum(pos: int, deltas: seq<int>, n: int, k: int)
    requires n > 0 && 0 <= pos < n
    requires forall j :: 0 <= j < |deltas| ==> deltas[j] == -1 || deltas[j] == 1
    requires 0 <= k < |deltas|
    ensures Walk(pos, deltas, n)[k] == (pos + Sum(deltas[..k + 1])) % n
    decreases k
  {
    var p := WalkStep(pos, deltas[0], n);
    if k == 0 {
      assert deltas[..1] == [deltas[0]];
      assert deltas[..1][1..] == [];
    } else {
      WalkIsSum(p, deltas[1..], n, k - 1);
      assert deltas[..k + 1][1..] == deltas[1..][..k];
      assert Sum(deltas[..k + 1]) == deltas[0] + Sum(deltas[1..][..k]);
      ModAddLeft(pos + deltas[0], Sum(deltas[1..][..k]), n);
    }
  }

  // ---------------------------------------------------------------------
  // meteor shower

  /** One meteor: a window of `size` pixels from the drawn `start` painted
      with the drawn colour (indices off the strip skipped) and flushed,
      then every pixel decayed on all four channels. The draw of `start`
      raises when the strip is shorter than the meteor. */
  method MeteorShowerUpdate(buf: Buffer, size: int, start: int, c: Pixel, decay: real)
    returns (o: Outcome, shown: Buffer)
    requires AllValid(buf) && Valid(c) && 0.0 <= decay <= 1.0
    requires |buf| >= size ==> 0 <= start <= |buf| - size
    ensures |o.buf| == |buf| && AllValid(o.buf)
    ensures o.Raised? <==> |buf| < size
    ensures |buf| < size ==> o.buf == buf
    ensures |buf| >= size ==> shown == Painted(buf, start, start + size, c)
    ensures |buf| >= size ==> forall i :: 0 <= i < |buf| ==> o.buf[i] == DecayRgbw(shown[i], decay)
  {
    if |buf| < size {
      return Raised(buf), buf;
    }
    shown := PaintWindow(buf, start, start + size, c);
    PaintedValid(buf, start, start + size, c);
    var after := DecayPass(shown, decay, true);
    o := Completed(after);
  }

  // ---------------------------------------------------------------------
  // comet rain

  datatype Comet = Comet(start: int, color: Pixel)

  /** The comets painted in order, each over `size` pixels from its start. */
  function RainComets(buf: Buffer, comets: seq<Comet>, size: int): (r: Buffer)
    ensures |r| == |buf|
    ensures forall i :: 0 <= i < |buf| ==>
      r[i] == buf[i] || exists k :: 0 <= k < |comets| && comets[k].start <= i < comets[k].start + size && r[i] == comets[k].color
    ensures forall i :: 0 <= i < |buf| && (forall k :: 0 <= k < |comets| ==> !(comets[k].start <= i < comets[k].start + size)) ==>
      r[i] == buf[i]
    ensures |comets| > 0 ==> forall i :: 0 <= i < |buf| && comets[|comets| - 1].start <= i < comets[|comets| - 1].start + size ==>
      r[i] == comets[|comets| - 1].color
    decreases |comets|
  {
    if comets == [] then buf else
      var last := comets[|comets| - 1];
      var prev := RainComets(buf, comets[..|comets| - 1], size);
      Painted(prev, last.start, last.start + size, last.color)
  }

  /** One update of the comet rain: the strip is cleared, then each of the
      3 to 6 drawn comets is painted. The draw of a start raises when the
      strip is shorter than a comet, after the strip has been cleared. */
  function CometRain(n: nat, size: int, comets: seq<Comet>): (o: Outcome)
    requires 3 <= |comets| <= 6
    requires n >= size ==> forall k :: 0 <= k < |comets| ==> 0 <= comets[k].start <= n - size
    ensures |o.buf| == n
    ensures o.Raised? <==> n < size
    ensures o.Raised? ==> IsDark(o.buf)
    ensures forall i :: 0 <= i < n ==>
      o.buf[i] == Black || exists k :: 0 <= k < |comets| && comets[k].start <= i < comets[k].start + size && o.buf[i] == comets[k].color
  {
    if n < size then Raised(Blank(n)) else Completed(RainComets(Blank(n), comets, size))
  }

  /** A pixel no comet covers is dark after the update. */
  lemma CometRainGaps(n: nat, size: int, comets: seq<Comet>, i: int)
    requires 3 <= |comets| <= 6
    requires n >= size ==> forall k :: 0 <= k < |comets| ==> 0 <= comets[k].start <= n - size
    requires 0 <= i < n
    requires forall k :: 0 <= k < |comets| ==> !(comets[k].start <= i < comets[k].start + size)
    ensures CometRain(n, size, comets).buf[i] == Black
  {
  }

  // ---------------------------------------------------------------------
  // pixel and lava explosions

  /** One wave of an explosion: the two pixels at distance `radius` from
      the centre, each only if it is on the strip. */
  function Ring(buf: Buffer, center: int, radius: int, p: Pixel): (r: Buffer)
    requires radius >= 1
    ensures |r| == |buf|
    ensures forall i :: 0 <= i < |buf| ==> r[i] == (if Dist(i, center) == radius then p else buf[i])
  {
    var lo := center - radius;
    var hi := center + radius;
    var b1 := if 0 <= lo < |buf| then SetPixel(buf, lo, p) else buf;
    assert forall i :: 0 <= i < |buf| ==> b1[i] == (if i == lo then p else buf[i]);
    if 0 <= hi < |buf| then SetPixel(b1, hi, p) else b1
  }

  /** The waves from `radius` on, up to `n // 2 - 1`: before each the stop
      flag is polled (poll number `radius - 1`), and the update returns at
      the first poll that sees it set; each wave is flushed. */
  function Waves(buf: Buffer, center: int, p: Pixel, stopAt: nat, radius: nat): (shown: seq<Buffer>)
    requires radius >= 1
    ensures |shown| == if radius - 1 < stopAt && radius < |buf| / 2 then Min(stopAt, |buf| / 2 - 1) - (radius - 1) else 0
    ensures forall k :: 0 <= k < |shown| ==> |shown[k]| == |buf|
    ensures forall k, i :: 0 <= k < |shown| && 0 <= i < |buf| ==>
      shown[k][i] == (if radius <= Dist(i, center) <= radius + k then p else buf[i])
    decreases |buf| - radius
  {
    if radius >= |buf| / 2 || radius - 1 >= stopAt then
      []
    else
      var b := Ring(buf, center, radius, p);
      var rest := Waves(b, center, p, stopAt, radius + 1);
      assert forall k :: 1 <= k < 1 + |rest| ==> ([b] + rest)[k] == rest[k - 1];
      [b] + rest
  }

  /** `explode`: the waves of one explosion, polled and flushed. The centre
      is never painted, and a pixel is painted iff it lies on a wave that
      was reached before the stop flag was seen. */
  lemma ExplosionReach(buf: Buffer, center: int, p: Pixel, stopAt: nat, k: int, i: int)
    requires 0 <= k < |Waves(buf, center, p, stopAt, 1)| && 0 <= i < |buf|
    ensures k < stopAt && k + 1 < |buf| / 2
    ensures 0 <= center < |buf| ==> Waves(buf, center, p, stopAt, 1)[k][center] == buf[center]
    ensures Waves(buf, center, p, stopAt, 1)[k][i] == (if 1 <= Dist(i, center) <= k + 1 then p else buf[i])
  {
  }

  /** The pixel explosion's update: when the drawn chance falls below the
      explosion probability, draw a centre and a colour and run the waves;
      otherwise nothing changes. Drawing a centre on an empty strip raises. */
  function PixelExplosion(buf: Buffer, chance: real, prob: real, center: int, p: Pixel, stopAt: nat): (o: Outcome)
    requires |buf| > 0 ==> 0 <= center < |buf|
    ensures |o.buf| == |buf|
    ensures chance >= prob ==> o == Completed(buf)
    ensures o.Raised? <==> chance < prob && |buf| == 0
    ensures chance < prob && |buf| > 0 ==> o.buf[center] == buf[center]
    ensures chance < prob && |buf| > 0 ==>
      var w := Waves(buf, center, p, stopAt, 1);
      o.buf == if w == [] then buf else w[|w| - 1]
    ensures chance < prob && |buf| > 0 ==>
      forall i :: 0 <= i < |buf| ==>
        o.buf[i] == if 1 <= Dist(i, center) <= Min(stopAt, |buf| / 2 - 1) then p else buf[i]
  {
    if chance >= prob then
      Completed(buf)
    else if |buf| == 0 then
      Raised(buf)
    else
      var shown := Waves(buf, center, p, stopAt, 1);
      Completed(if shown == [] then buf else shown[|shown| - 1])
  }

  /** Lava: full red, some green, no blue, a little white. */
  predicate IsLava(p: Pixel) {
    p.r == 255 && 50 <= p.g <= 150 && p.b == 0 && 0 <= p.w <= 100
  }

  /** The lava explosion's update: always draws a centre and a lava colour
      and runs the waves; every painted pixel is lava-coloured. */
  function LavaExplosion(buf: Buffer, center: int, p: Pixel, stopAt: nat): (o: Outcome)
    requires IsLava(p)
    requires |buf| > 0 ==> 0 <= center < |buf|
    ensures |o.buf| == |buf|
    ensures o.Raised? <==> |buf| == 0
    ensures forall i :: 0 <= i < |buf| ==> o.buf[i] == buf[i] || (IsLava(o.buf[i]) && Valid(o.buf[i]))
    ensures |buf| > 0 ==>
      forall i :: 0 <= i < |buf| ==>
        o.buf[i] == if 1 <= Dist(i, center) <= Min(stopAt, |buf| / 2 - 1) then p else buf[i]
  {
    if |buf| == 0 then
      Raised(buf)
    else
      var shown := Waves(buf, center, p, stopAt, 1);
      Completed(if shown == [] then buf else shown[|shown| - 1])
  }

  // ---------------------------------------------------------------------
  // sparkles, glitter and twinkle

  /** Pixel `i` lights up with its drawn colour when its drawn chance
      falls below `prob`, and is switched off otherwise. */
  function Glitter(chances: seq<real>, colors: seq<Pixel>, prob: real): (f: Buffer)
    requires |colors| == |chances|
    ensures |f| == |chances|
    ensures forall i :: 0 <= i < |f| ==> f[i] == colors[i] || f[i] == Black
    ensures forall i :: 0 <= i < |f| ==> (f[i] == colors[i] <== chances[i] < prob)
    ensures forall i :: 0 <= i < |f| ==> (f[i] == Black <== chances[i] >= prob)
  {
    seq(|chances|, i requires 0 <= i < |chances| => if chances[i] < prob then colors[i] else Black)
  }

  /** Random sparkles are glitter with probability 0.05. */
  function Sparkles(chances: seq<real>, colors: seq<Pixel>): (f: Buffer)
    requires |colors| == |chances|
    ensures |f| == |chances|
    ensures forall i :: 0 <= i < |f| ==> (chances[i] < 0.05 ==> f[i] == colors[i]) && (chances[i] >= 0.05 ==> f[i] == Black)
  {
    Glitter(chances, colors, 0.05)
  }

  /** The glitter update as a loop: each pixel, in index order, is set to
      its drawn colour or switched off, and nothing else is written. */
  method GlitterUpdate(buf: Buffer, chances: seq<real>, colors: seq<Pixel>, prob: real) returns (r: Buffer)
    requires |chances| == |buf| && |colors| == |buf|
    ensures r == Glitter(chances, colors, prob)
  {
    r := buf;
    var i := 0;
    while i < |buf|
      invariant 0 <= i <= |buf| && |r| == |buf|
      invariant forall k :: 0 <= k < i ==> r[k] == Glitter(chances, colors, prob)[k]
    {
      r := SetPixel(r, i, if chances[i] < prob then colors[i] else Black);
      i := i + 1;
    }
  }

  /** With the same draws, every pixel the sparkles light is lit with the
      same colour by the default glitter, whose probability is 0.1. */
  lemma SparklesWithinGlitter(chances: seq<real>, colors: seq<Pixel>, i: int)
    requires |colors| == |chances| && 0 <= i < |chances| && colors[i] != Black
    ensures Sparkles(chances, colors)[i] != Black ==> Glitter(chances, colors, 0.1)[i] == colors[i]
  {
    GlitterMono(chances, colors, 0.05, 0.1, i);
  }

  /** With valid drawn colours the result is valid; a probability of 0
      leaves the strip dark and a probability of 1 lights every pixel. */
  lemma GlitterExtremes(chances: seq<real>, colors: seq<Pixel>, prob: real)
    requires |colors| == |chances| && AllValid(colors)
    requires forall i :: 0 <= i < |chances| ==> 0.0 <= chances[i] < 1.0
    ensures AllValid(Glitter(chances, colors, prob))
    ensures prob <= 0.0 ==> IsDark(Glitter(chances, colors, prob))
    ensures prob >= 1.0 ==> Glitter(chances, colors, prob) == colors
  {
  }

  /** With the same draws, every pixel a lower probability lights is also
      lit by a higher one: sparkles (0.05) light a subset of what the
      default glitter (0.1) lights. */
  lemma GlitterMono(chances: seq<real>, colors: seq<Pixel>, p1: real, p2: real, i: int)
    requires |colors| == |chances| && p1 <= p2 && 0 <= i < |chances|
    requires colors[i] != Black
    ensures Glitter(chances, colors, p1)[i] != Black ==> Glitter(chances, colors, p2)[i] == colors[i]
  {
  }

  // ---------------------------------------------------------------------
  // lightning storm

  const StormBlue := Pixel(0, 0, 50, 0)
  const FullWhite := Pixel(255, 255, 255, 255)

  /** The flushes of one update: the strip is set to a dim blue; when the
      drawn chance is below 0.05 it is overwritten with full white and
      flushed; then it is flushed once more. */
  function Lightning(n: nat, chance: real): (shown: seq<Buffer>)
    ensures 0 < |shown| <= 2
    ensures |shown| == 2 <==> chance < 0.05
    ensures forall k :: 0 <= k < |shown| ==> shown[k] == Filled(n, if chance < 0.05 then FullWhite else StormBlue)
  {
    var storm := Filled(n, StormBlue);
    if chance < 0.05 then
      var flash := Filled(n, FullWhite);
      [flash, flash]
    else
      [storm]
  }

  /** One lightning update as a sequence of writes: every pixel set to the
      dim blue, then, on a flash, every pixel set to full white and
      flushed; the final flush shows the strip the update returns. */
  method LightningUpdate(buf: Buffer, chance: real) returns (o: Outcome, shown: seq<Buffer>)
    ensures shown == Lightning(|buf|, chance)
    ensures o == Completed(shown[|shown| - 1])
  {
    var strip := SetAllPixels(buf, StormBlue);
    shown := [];
    if chance < 0.05 {
      strip := SetAllPixels(strip, FullWhite);
      shown := [strip];
    }
    assert strip == Filled(|buf|, if chance < 0.05 then FullWhite else StormBlue);
    shown := shown + [strip];
    o := Completed(strip);
  }

  /** Every buffer a lightning update flushes is valid; a flash flushes the
      same all-white strip twice, at least as bright as the storm's blue in
      every channel, and without a flash the dim blue is flushed once. */
  lemma LightningFlushes(n: nat, chance: real)
    ensures var shown := Lightning(n, chance);
      (forall k :: 0 <= k < |shown| ==> |shown[k]| == n && AllValid(shown[k]))
      && (chance < 0.05 ==>
            |shown| == 2 && shown[0] == shown[1]
            && forall i :: 0 <= i < n ==> shown[0][i] == FullWhite && Dimmer(StormBlue, shown[0][i]))
      && (chance >= 0.05 ==> |shown| == 1 && forall i :: 0 <= i < n ==> shown[0][i] == StormBlue)
  {
  }
}

=== FILE: ranges.dfy ===
/** Python's `range(start, stop, step)` for a non-zero step, the loop
    driver of every ramp and sweep in the effects. */
module Ranges {

  /** Whether `x` has not yet run past `stop` in the direction of `step`. */
  predicate Before(x: int, stop: int, step: int) {
    if step > 0 then x < stop else x > stop
  }

  function PyRange(start: int, stop: int, step: int): (r: seq<int>)
    requires step != 0
    ensures forall k :: 0 <= k < |r| ==> r[k] == start + k * step
    ensures forall k :: 0 <= k < |r| ==> Before(r[k], stop, step)
    ensures !Before(start + |r| * step, stop, step)
    decreases if step > 0 then stop - start else start - stop
  {
    if Before(start, stop, step) then
      var t := PyRange(start + step, stop, step);
      assert start + (|t| + 1) * step == start + step + |t| * step;
      assert forall k :: 1 <= k < |t| + 1 ==> ([start] + t)[k] == start + k * step by {
        forall k | 1 <= k < |t| + 1
          ensures ([start] + t)[k] == start + k * step
        {
          assert ([start] + t)[k] == t[k - 1];
          assert (k - 1) * step + step == k * step;
        }
      }
      [start] + t
    else
      []
  }

  /** The ascending ramp `range(0, top + 1, 5)` starts at 0, never exceeds
      `top`, and stops within one step of it. */
  lemma {:induction false} UpRampBounds(top: int)
    requires top >= 0
    ensures var r := PyRange(0, top + 1, 5);
      |r| > 0 && r[0] == 0 && r[|r| - 1] <= top < r[|r| - 1] + 5
      && forall k :: 0 <= k < |r| ==> 0 <= r[k] <= top
  {
    var r := PyRange(0, top + 1, 5);
    assert Before(0, top + 1, 5);
    assert |r| > 0;
  }

  /** The descending ramp `range(top, -1, -5)` starts at `top`, never goes
      below 0, and ends at `top % 5`. */
  lemma {:induction false} DownRampBounds(top: int)
    requires top >= 0
    ensures var r := PyRange(top, -1, -5);
      |r| > 0 && r[0] == top && r[|r| - 1] == top % 5
      && forall k :: 0 <= k < |r| ==> 0 <= r[k] <= top
  {
    var r := PyRange(top, -1, -5);
    assert Before(top, -1, -5);
    assert |r| > 0;
    var last := r[|r| - 1];
    assert last == top - (|r| - 1) * 5 && last >= 0 && last - 5 < 0;
    assert (top - last) % 5 == 0 by {
      assert top - last == (|r| - 1) * 5;
    }
  }
}

=== FILE: sound.dfy ===
/** The per-frame update of the music-synchronised wave, from the magnitude
    spectrum on: keep the first `n` bins (one per pixel), normalise them by
    their maximum (or by 1 when they are all zero), scale to [0, 255] and
    colour the low third of the strip red, the middle third green and the
    rest blue. Audio capture and the Fourier transform are not part of this
    model: the spectrum is an input of non-negative reals. */
module Sound {
  import opened Pixels
  import opened ColorUtils
  import opened Engine

  type Magnitude = x: real | x >= 0.0

  /** Samples read per audio block; the real FFT of a block has
      `Chunk / 2 + 1` bins. */
  const Chunk := 1024
  const BinCount := Chunk / 2 + 1

  /** `np.max` of a non-empty array. */
  function MaxOf(s: seq<Magnitude>): (m: Magnitude)
    requires |s| > 0
    ensures forall i :: 0 <= i < |s| ==> s[i] <= m
    ensures exists i :: 0 <= i < |s| && s[i] == m
  {
    if |s| == 1 then
      s[0]
    else
      var t := MaxOf(s[1..]);
      assert forall i :: 1 <= i < |s| ==> s[i] == s[1..][i - 1];
      if s[0] >= t then s[0] else t
  }

  /** `fft_data[:n]`: the first `n` bins, or all of them if there are fewer. */
  function Bins(spectrum: seq<Magnitude>, n: nat): (bins: seq<Magnitude>)
    ensures |bins| == if |spectrum| <= n then |spectrum| else n
    ensures forall i :: 0 <= i < |bins| ==> bins[i] == spectrum[i]
  {
    if |spectrum| <= n then spectrum else spectrum[..n]
  }

  /** The normalisation divisor: the largest bin, or 1 when every bin is 0. */
  function Divisor(bins: seq<Magnitude>): (d: real)
    requires |bins| > 0
    ensures d > 0.0
    ensures forall i :: 0 <= i < |bins| ==> bins[i] <= d
    ensures (forall i :: 0 <= i < |bins| ==> bins[i] == 0.0) ==> d == 1.0
    ensures (exists i :: 0 <= i < |bins| && bins[i] > 0.0) ==> d == MaxOf(bins)
  {
    var m := MaxOf(bins);
    if m > 0.0 then m else 1.0
  }

  lemma DivUnit(x: real, d: real)
    requires 0.0 <= x <= d && d > 0.0
    ensures 0.0 <= x / d <= 1.0
    ensures x == d ==> x / d == 1.0
  {
  }

  lemma DivMono(x: real, y: real, d: real)
    requires 0.0 <= x <= y && d > 0.0
    ensures x / d <= y / d
  {
  }

  /** `int(normalized_data[i])`: bin `i` as a brightness in [0, 255]. */
  function Intensity(bins: seq<Magnitude>, i: int): (v: int)
    requires 0 <= i < |bins|
    ensures IsChannel(v)
    ensures bins[i] == 0.0 ==> v == 0
    ensures bins[i] > 0.0 && bins[i] == MaxOf(bins) ==> v == 255
  {
    var d := Divisor(bins);
    var q := bins[i] / d;
    DivUnit(bins[i], d);
    MulUnit(255.0, q);
    assert q * 255.0 == 255.0 * q;
    TruncBetween(q * 255.0, 0, 255);
    assert bins[i] > 0.0 && bins[i] == MaxOf(bins) ==> q == 1.0;
    Trunc(q * 255.0)
  }

  /** A louder bin never gets a dimmer pixel. */
  lemma IntensityMono(bins: seq<Magnitude>, i: int, j: int)
    requires 0 <= i < |bins| && 0 <= j < |bins| && bins[i] <= bins[j]
    ensures Intensity(bins, i) <= Intensity(bins, j)
  {
    var d := Divisor(bins);
    var x, y := bins[i] / d, bins[j] / d;
    DivMono(bins[i], bins[j], d);
    DivUnit(bins[i], d);
    MulNonneg(y - x, 255.0);
    assert (y - x) * 255.0 == y * 255.0 - x * 255.0;
    MulNonneg(x, 255.0);
    TruncMono(x * 255.0, y * 255.0);
  }

  /** The frequency band of pixel `i` on a strip of `n` pixels picks its
      colour channel: the first third red, the second third green, the
      rest blue; white stays off. */
  function BandPixel(i: int, n: nat, v: int): (p: Pixel)
    requires IsChannel(v)
    ensures Valid(p) && p.w == 0 && p.r + p.g + p.b == v
    ensures i < n / 3 ==> p == Pixel(v, 0, 0, 0)
    ensures n / 3 <= i < 2 * n / 3 ==> p == Pixel(0, v, 0, 0)
    ensures 2 * n / 3 <= i ==> p == Pixel(0, 0, v, 0)
  {
    assert n / 3 <= 2 * n / 3;
    if i < n / 3 then Pixel(v, 0, 0, 0)
    else if i < 2 * n / 3 then Pixel(0, v, 0, 0)
    else Pixel(0, 0, v, 0)
  }

  /** One frame of the effect on a strip of `|buf|` pixels. The update
      raises when the strip is empty (the maximum of no bins) and when the
      spectrum is shorter than the strip (indexing past the last bin), in
      which case the pixels before that index have already been written. */
  function SoundFrame(buf: Buffer, spectrum: seq<Magnitude>): (o: Outcome)
    ensures |o.buf| == |buf|
    ensures o.Completed? <==> 0 < |buf| <= |spectrum|
    ensures forall i :: |spectrum| <= i < |buf| ==> o.buf[i] == buf[i]
    ensures forall i :: 0 <= i < |buf| && i < |spectrum| ==>
      Valid(o.buf[i]) && o.buf[i].w == 0
      && o.buf[i].r + o.buf[i].g + o.buf[i].b == Intensity(Bins(spectrum, |buf|), i)
  {
    var n := |buf|;
    var bins := Bins(spectrum, n);
    if |bins| == 0 then
      Raised(buf)
    else
      var lit := seq(n, i requires 0 <= i < n =>
        if i < |bins| then BandPixel(i, n, Intensity(bins, i)) else buf[i]);
      if |bins| < n then Raised(lit) else Completed(lit)
  }

  /** Each written pixel lights only the channel of its band. */
  lemma SoundBands(buf: Buffer, spectrum: seq<Magnitude>, i: int)
    requires 0 <= i < |buf| && i < |spectrum|
    ensures var p, n := SoundFrame(buf, spectrum).buf[i], |buf|;
      (i < n / 3 ==> p.g == 0 && p.b == 0)
      && (n / 3 <= i < 2 * n / 3 ==> p.r == 0 && p.b == 0)
      && (2 * n / 3 <= i ==> p.r == 0 && p.g == 0)
  {
  }

  /** A silent block gives a dark strip, with no division by zero. */
  lemma SilenceIsDark(buf: Buffer, spectrum: seq<Magnitude>)
    requires 0 < |buf| <= |spectrum|
    requires forall i :: 0 <= i < |spectrum| ==> spectrum[i] == 0.0
    ensures SoundFrame(buf, spectrum).Completed?
    ensures IsDark(SoundFrame(buf, spectrum).buf)
  {
    var o := SoundFrame(buf, spectrum);
    var bins := Bins(spectrum, |buf|);
    forall i | 0 <= i < |buf|
      ensures o.buf[i] == Black
    {
      assert bins[i] == 0.0;
    }
  }

  /** In a non-silent block the loudest kept bin is shown at full
      brightness, and a louder bin is never shown dimmer. */
  lemma LoudestIsFull(buf: Buffer, spectrum: seq<Magnitude>, i: int, j: int)
    requires 0 < |buf| <= |spectrum| && 0 <= i < |buf| && 0 <= j < |buf|
    ensures var bins, p := Bins(spectrum, |buf|), SoundFrame(buf, spectrum).buf;
      (spectrum[i] > 0.0 && spectrum[i] == MaxOf(bins) ==> p[i].r + p[i].g + p[i].b == 255)
      && (spectrum[i] <= spectrum[j] ==>
            p[i].r + p[i].g + p[i].b <= p[j].r + p[j].g + p[j].b)
  {
    var bins := Bins(spectrum, |buf|);
    if spectrum[i] <= spectrum[j] {
      IntensityMono(bins, i, j);
    }
  }

  /** The update as a loop over the pixels, each written exactly once, in
      index order, up to the first missing bin. */
  method SoundUpdate(buf: Buffer, spectrum: seq<Magnitude>) returns (o: Outcome)
    ensures o == SoundFrame(buf, spectrum)
  {
    var n := |buf|;
    var bins := Bins(spectrum, n);
    if |bins| == 0 {
      return Raised(buf);
    }
    var strip := buf;
    var i := 0;
    while i < n
      invariant 0 <= i <= n && i <= |bins| && |strip| == n
      invariant forall k :: 0 <= k < i ==> strip[k] == BandPixel(k, n, Intensity(bins, k))
      invariant forall k :: i <= k < n ==> strip[k] == buf[k]
    {
      if i >= |bins| {
        assert SoundFrame(buf, spectrum).buf == strip;
        return Raised(strip);
      }
      strip := SetPixel(strip, i, BandPixel(i, n, Intensity(bins, i)));
      i := i + 1;
    }
    assert SoundFrame(buf, spectrum).buf == strip;
    o := Completed(strip);
  }

  /** The effect in the generic loop: frame `k` sees the spectrum of the
      `k`-th audio block. */
  function SoundEffect(spectra: nat -> seq<Magnitude>): (u: Update)
    ensures forall b: Buffer, k: nat :: u(b, k).Completed? <==> 0 < |b| <= |spectra(k)|
  {
    var f := (b: Buffer, k: nat) => SoundFrame(b, spectra(k));
    assert forall b: Buffer, k: nat :: |f(b, k).buf| == |b| by {
      forall b: Buffer, k: nat
        ensures |f(b, k).buf| == |b|
      {
        assert f(b, k) == SoundFrame(b, spectra(k));
      }
    }
    f
  }

  /** A strip with more pixels than the block has bins stops the effect at
      its first frame with a caught error and a dark strip; with a block of
      `Chunk` samples that is any strip longer than 513 pixels. */
  lemma LongStripStops(buf: Buffer, stops: seq<bool>, spectra: nat -> seq<Magnitude>)
    requires |stops| > 0 && !stops[0]
    requires |spectra(0)| == BinCount && |buf| > BinCount
    ensures var r := RunGeneric(buf, stops, SoundEffect(spectra));
      r.exit == ErrorCaught && r.frames == 1 && IsDark(r.final)
  {
    assert SoundEffect(spectra)(buf, 0).Raised?;
  }
}

=== FILE: strip_writes.dfy ===
/** The two write patterns the moving and random effects share: painting a
    window of indices with one colour, skipping indices off the strip, and
    decaying a pixel read back from the strip by a factor in [0, 1]. */
module StripWrites {
  import opened Pixels
  import opened ColorUtils

  /** The strip after every index of `[lo, hi)` that lies on it has been
      set to `p`; everything else is as before. */
  function Painted(buf: Buffer, lo: int, hi: int, p: Pixel): (r: Buffer)
    ensures |r| == |buf|
    ensures forall i :: 0 <= i < |buf| && lo <= i < hi ==> r[i] == p
    ensures forall i :: 0 <= i < |buf| && !(lo <= i < hi) ==> r[i] == buf[i]
  {
    seq(|buf|, i requires 0 <= i < |buf| => if lo <= i < hi then p else buf[i])
  }

  /** Painting keeps a strip of valid pixels valid. */
  lemma PaintedValid(buf: Buffer, lo: int, hi: int, p: Pixel)
    requires AllValid(buf) && Valid(p)
    ensures AllValid(Painted(buf, lo, hi, p))
  {
  }

  /** Painting the same window twice keeps only the second colour. */
  lemma PaintedTwice(buf: Buffer, lo: int, hi: int, p: Pixel, q: Pixel)
    ensures Painted(Painted(buf, lo, hi, p), lo, hi, q) == Painted(buf, lo, hi, q)
  {
  }

  /** The guarded loop `for i in range(lo, hi): if 0 <= i < l: set(i, p)`;
      the guard keeps every write on the strip. */
  method PaintWindow(buf: Buffer, lo: int, hi: int, p: Pixel) returns (r: Buffer)
    ensures r == Painted(buf, lo, hi, p)
  {
    r := buf;
    var i := lo;
    while i < hi
      invariant |r| == |buf| && (lo <= i <= hi || i == lo)
      invariant forall k :: 0 <= k < |buf| ==> r[k] == (if lo <= k < i then p else buf[k])
    {
      if 0 <= i < |r| {
        r := SetPixel(r, i, p);
      }
      i := i + 1;
    }
  }

  /** The pixel rewritten from its packed word with every channel scaled by
      `f` and truncated: `setPixelColorRGB(i, int(r*f), int(g*f), int(b*f), int(w*f))`. */
  function DecayRgbw(p: Pixel, f: real): (q: Pixel)
    requires Valid(p) && 0.0 <= f <= 1.0
    ensures Valid(q) && Dimmer(q, p)
    ensures f == 1.0 ==> q == p
    ensures f == 0.0 ==> q == Black
  {
    UnpackPack(p);
    ScaleColor(Pack(p), f)
  }

  /** The same with only the colour channels, written back through
      `Color(r, g, b)`, which leaves white at 0. */
  function DecayRgb(p: Pixel, f: real): (q: Pixel)
    requires Valid(p) && 0.0 <= f <= 1.0
    ensures Valid(q) && Dimmer(q, p) && q.w == 0
    ensures f == 1.0 ==> q == p.(w := 0)
  {
    DecayRgbw(p, f).(w := 0)
  }

  /** Each decayed channel is the truncated product of the channel read
      back and the factor. */
  lemma DecayChannels(p: Pixel, f: real)
    requires Valid(p) && 0.0 <= f <= 1.0
    ensures DecayRgbw(p, f) == Pixel(ScaleChannel(p.r, f), ScaleChannel(p.g, f), ScaleChannel(p.b, f), ScaleChannel(p.w, f))
  {
    UnpackPack(p);
  }

  /** A pixel decayed by a factor below 1 loses at least one unit in every
      lit channel. */
  lemma DecayShrinks(p: Pixel, f: real)
    requires Valid(p) && 0.0 <= f < 1.0
    ensures var q := DecayRgbw(p, f);
      (p.r > 0 ==> q.r < p.r) && (p.g > 0 ==> q.g < p.g)
      && (p.b > 0 ==> q.b < p.b) && (p.w > 0 ==> q.w < p.w)
  {
    DecayChannels(p, f);
    if p.r > 0 { ScaleChannelShrinks(p.r, f); }
    if p.g > 0 { ScaleChannelShrinks(p.g, f); }
    if p.b > 0 { ScaleChannelShrinks(p.b, f); }
    if p.w > 0 { ScaleChannelShrinks(p.w, f); }
  }

  function Decay(p: Pixel, f: real, keepWhite: bool): (q: Pixel)
    requires Valid(p) && 0.0 <= f <= 1.0
    ensures Valid(q) && Dimmer(q, p)
  {
    if keepWhite then DecayRgbw(p, f) else DecayRgb(p, f)
  }

  /** `for i in range(l)`: read every pixel back and write it decayed. */
  method DecayPass(buf: Buffer, f: real, keepWhite: bool) returns (r: Buffer)
    requires AllValid(buf) && 0.0 <= f <= 1.0
    ensures |r| == |buf| && AllValid(r)
    ensures forall i :: 0 <= i < |buf| ==> r[i] == Decay(buf[i], f, keepWhite)
  {
    r := buf;
    var i := 0;
    while i < |buf|
      invariant 0 <= i <= |buf| && |r| == |buf|
      invariant forall k :: 0 <= k < i ==> r[k] == Decay(buf[k], f, keepWhite)
      invariant forall k :: i <= k < |buf| ==> r[k] == buf[k]
    {
      r := SetPixel(r, i, Decay(r[i], f, keepWhite));
      i := i + 1;
    }
  }
}
